=== FILE: README.md ===
# A Dafny model of the decision logic of py-automation-testing

py-automation-testing is a browser and database test suite for an IT-asset
portal. It uses Playwright page objects, behave hooks and psycopg2 query
helpers. Most of it drives I/O. This project models the parts that make
decisions, and proves what they promise:

- **Locator fallback** (`LocatorHelpers`): a primary selector, then each
  fallback in order. Only a timeout moves on to the next candidate. Also
  the selector-string builders.
- **Retry and polling** (`WaitHelpers`): `retry_on_failure` and
  `wait_for_condition`. The retried function, the condition and the clock
  are oracle sequences, and time is counted in integer ticks.
- **Failure artifacts** (`Artifacts`): the file-name sanitiser, and the
  trace and screenshot paths that `after_scenario` writes for a failed
  scenario.
- **SQL builders** (`SqlQuery`): the ILIKE search pattern, and the dynamic
  `WHERE` clause with its parameter tuple.
- **Settings** (`Settings`): the environment as a map, boolean parsing, the
  Keycloak token endpoint, the valid and negative credential sets, and the
  rules of `validate_config`.
- **Page objects**:
  - `BasePage` is the browser as an oracle. `Browser` answers the n-th
    call, and each action appends its calls to a log.
  - `LoginPage` covers the Microsoft sign-in steps, where some errors
    are swallowed and others propagate, and the fixed step order of
    `complete_full_login`.
  - `OverviewPage` covers the locator table, section and card lookups,
    and the metric-value and Security Posture verdicts.

Python's Unicode-aware `str.isalnum`, `str.lower`, `str.isspace` and the
regex `\d` are restricted to ASCII here (module `Text`). A dictionary is
its list of entries in iteration order.

## Model

| member | source | states |
|---|---|---|
| LocatorHelpers.FindElement | utils/locator_helpers.py:26-50 | waits on the primary, then on each fallback in order, each at most once; every wait before the last timed out; a reached candidate gives its locator, a non-timeout error propagates; the result is `None` exactly when every candidate timed out; a found primary means no fallback is waited on |
| LocatorHelpers.Candidates | utils/locator_helpers.py:33-45 | the candidates are the primary followed by the fallbacks in list order |
| LocatorHelpers.NewStrategy | utils/locator_helpers.py:19-24 | keeps the primary; a missing fallback list becomes the empty list and a given one is kept as it is |
| LocatorHelpers.NoFallbacksIsEmptyFallbacks | utils/locator_helpers.py:19-24 | a strategy with no fallback list equals one with an empty list, and its only candidate is the primary |
| LocatorHelpers.DataTestIdSelector | utils/locator_helpers.py:53-55 | the result is the id between `[data-testid="` and `"]` |
| LocatorHelpers.RoleSelector | utils/locator_helpers.py:58-62 | `role=R` followed by `[name="N"]` exactly when a non-empty name is given; nothing follows for `None` or the empty name |
| LocatorHelpers.TextSelector | utils/locator_helpers.py:65-69 | `text=` followed by the text, which is wrapped in double quotes exactly when `exact` is set |
| LocatorHelpers.CombineSelectors | utils/locator_helpers.py:72-74 | no selectors give the empty string, one selector is returned unchanged, and the result always starts with the first selector |
| LocatorHelpers.CombineSelectorsLength | utils/locator_helpers.py:72-74 | the combined selector holds every part plus one operator between each pair of neighbours; no selectors give the empty string |
| LocatorHelpers.CombineSelectorsAppend | utils/locator_helpers.py:72-74 | combining two non-empty lists is combining each and joining the two results with the operator, so the parts keep their order |
| LocatorHelpers.ButtonWithText | utils/locator_helpers.py:99-102 | the selector is the button-text selector and the input-value selector, combined with `, ` |
| WaitHelpers.RetryOnFailure | utils/wait_helpers.py:48-67 | at most `max_attempts` calls; one delay between consecutive calls and none after the last; the first call that returns decides the result; a non-listed exception propagates at once; if every call raises a listed exception, the last one is re-raised; with `max_attempts <= 0` no call is made and `raise None` fails |
| WaitHelpers.WaitForCondition | utils/wait_helpers.py:17-33 | the condition is evaluated only while the elapsed time is below the timeout; the result is True at the first poll where the condition holds, with no later poll; an exception from the condition counts as "not yet"; otherwise `TimeoutError(error_message)`; with `timeout <= 0` the condition is never evaluated; when sleeps take `poll_interval` ticks, the polls fit within the timeout |
| Artifacts.SanitizeFilename | features/environment.py:312-326 | every output character is an ASCII letter or digit, `.`, `_` or `-`; the output is never longer than the input |
| Artifacts.SanitizeIsPiecewise | features/environment.py:323-325 | the replace-then-filter sanitiser equals a character-by-character map: separators become `_`, safe characters stay, all others are dropped |
| Artifacts.SanitizeOneChar | features/environment.py:323-325 | a space, `/` or `\` becomes `_` rather than being deleted; a safe character survives; any other character is dropped |
| Artifacts.SanitizeAppend | features/environment.py:323-325 | sanitising distributes over concatenation, so the surviving characters keep their order |
| Artifacts.SanitizeKeepsSafeNames | features/environment.py:323-325 | a name made only of safe characters is left unchanged |
| Artifacts.SanitizeIdempotent | features/environment.py:323-325 | sanitising twice is the same as sanitising once |
| Artifacts.SanitizedHasNoSlash | features/environment.py:323-325 | the sanitised name never contains `/` |
| Artifacts.TracePath | features/environment.py:198-204 | the trace path is `reports/traces/`, then the sanitised name, then `_` and the timestamp, then `.zip` |
| Artifacts.TracePathStaysInTraceDir | features/environment.py:200-204 | whatever the scenario name is, a slash-free timestamp keeps the trace file directly inside `reports/traces` |
| Artifacts.PathJoin | features/environment.py:236 | POSIX `os.path.join` of two parts. An absolute file name replaces the directory. An empty directory, or one already ending in `/`, is followed directly by the file name. Any other directory gets exactly one added `/` before the file name. |
| Artifacts.ScreenshotPath | features/environment.py:230-236 | the path ends with the sanitised scenario name, `_`, the timestamp and `.png`. It is at most one character longer than the directory and the file name together, and that one extra character is the `/` right after the directory. |
| Artifacts.ScreenshotPathInDir | features/environment.py:230-236 | the screenshot path starts with the configured directory, which `os.path.join` never discards because the file name cannot start with `/`, and it ends in `.png` |
| Artifacts.FailureArtifacts | features/environment.py:198-236 | nothing is written for a passed scenario; a failed one gets the trace file when tracing is on, then the screenshot when screenshots on failure are on |
| SqlQuery.SearchPattern | database/sql_query.py:312-326 | the term wrapped in one `%` on each side |
| SqlQuery.UsersByFilter | database/sql_query.py:329-352 | one parameter per filter entry, in iteration order; the text is the fixed `SELECT ... WHERE ` head, then the `field = %s` conditions in the same order joined by ` AND `, then the fixed `ORDER BY` tail |
| SqlQuery.PlaceholdersMatchParams | database/sql_query.py:343-352 | when no field name holds `%`, the text has exactly as many `%` placeholders as there are parameters |
| SqlQuery.EmptyFilterLeavesDanglingWhere | database/sql_query.py:343-352 | an empty filter gives the `WHERE` head immediately followed by the `ORDER BY` tail, with no parameters |
| SqlQuery.UsersByFilterGuarded | database/sql_query.py:329-352 | the corrected builder: with no filter it omits `WHERE`; otherwise it agrees with the source |
| SqlQuery.GuardedWhereHasCondition | database/sql_query.py:343-351 | in the corrected builder, every `WHERE` is followed by the first filter entry's condition |
| Settings.GetBoolEnv | config/settings.py:33-35 | true exactly when the value, or the default when the variable is unset, equals `true` ignoring case |
| Settings.GetBoolEnvDefaultFalse | config/settings.py:33-35 | with the default default, an unset variable is false, `TRUE` and `True` are true, and `1` is false |
| Settings.Load | config/settings.py:47-114 | each string setting is its variable's value when set and its documented default otherwise, `PORTAL_BASE_URL` falling back to `BASE_URL`; each flag is `get_bool_env` with its documented default; the seven credentials have no default and are absent exactly when unset; the token endpoint is built from the loaded Keycloak base URL and realm |
| Settings.LoadDefaults | config/settings.py:47-114 | with an empty environment: the browser, headless, debug, trace and on-failure flags, the screenshot and video directories, the portal and Keycloak URLs, the realm, the token endpoint, the grant type and the two invalid credentials take their documented defaults, and all seven credentials are absent |
| Settings.PortalBaseUrlPrecedence | config/settings.py:47-50 | `PORTAL_BASE_URL` takes precedence over `BASE_URL`, which takes precedence over the built-in URL |
| Settings.TokenEndpoint | config/settings.py:101-103 | base URL, then `/realms/`, then the realm, then `/protocol/openid-connect/token` |
| Settings.ValidCredentials | config/settings.py:165-197 | ValueError unless client id, secret, username and password are all set and non-empty; on success, exactly the five keys, carrying those values and the grant type |
| Settings.InvalidUsernameCredentials | config/settings.py:200-204 | fails exactly when the valid set fails; otherwise the valid set with only `username` replaced by the invalid username |
| Settings.InvalidPasswordCredentials | config/settings.py:207-211 | fails exactly when the valid set fails; otherwise the valid set with only `password` replaced by the invalid password |
| Settings.NegativeCredentialsDifferInOneField | config/settings.py:200-211 | the two negative sets agree outside username and password; each equals the valid set only when its replacement value equals the valid one |
| Settings.ValidateWebCredentials | config/settings.py:214-226 | raises exactly when the test email or the test password is missing or empty |
| Settings.ValidateConfig | config/settings.py:243-269 | valid exactly when the browser is chromium, firefox or webkit; errors are non-empty exactly when the config is invalid, and then hold the one invalid-browser message; the web warning is issued exactly when email or password is missing, the API warning exactly when the client id or secret is missing, and no other warning is ever issued; the web warning comes first |
| Settings.CredentialsOnlyWarn | config/settings.py:256-262 | changing credentials never changes `valid` or `errors` |
| Settings.WebCheckAgreesWithWarning | config/settings.py:214-226 | `validate_web_credentials` raises exactly when `validate_config` warns about web credentials |
| BasePage.Navigate | pages/base_page.py:52-69 | one `goto` of the URL, whose error propagates; on success it returns `None` |
| BasePage.WaitForSelector | pages/base_page.py:129-148 | one wait on the selector, whose error propagates; on success it returns `None` |
| BasePage.ClickAndWait | pages/base_page.py:71-88 | a click followed by a wait for network idle. A raising click ends the action with its error and no wait. It succeeds exactly when both the click and the wait succeed, and then returns `None`. |
| LoginPage.GotoSignIn | pages/login_page.py:40-42 | one `goto` of the base URL followed by `/sign-in`. It succeeds, returning `None`, exactly when that goto does, so a raising goto propagates. |
| LoginPage.WaitAndFill | pages/login_page.py:51-52 | a wait for the selector, then the fill only if the wait replied Ok; succeeds exactly when both reply Ok, and then returns `None` |
| LoginPage.FillPrimaryElseAlternate | pages/login_page.py:48-55 | in terms of the browser's replies: when the primary wait and fill reply Ok, those are the only calls; otherwise the primary's calls are followed by a wait for the alternate and, if that replied Ok, its fill; succeeds exactly when the primary's or else the alternate's calls all reply Ok; a failure is the error of the alternate's last call |
| LoginPage.EnterEmail | pages/login_page.py:48-55 | the primary-else-alternate behaviour on the two email inputs: a working primary input is the only one touched, a failing one hands over to the alternate, whose error propagates |
| LoginPage.EnterPassword | pages/login_page.py:61-70 | the same behaviour on the two password inputs |
| LoginPage.EnterMfaCode | pages/login_page.py:99-113 | never raises; makes the calls of the primary-else-alternate fill on the two code inputs, then gives up silently if both failed |
| LoginPage.ClickSignIn | pages/login_page.py:72-78 | click, then network idle, then network idle once more; each call is made only after the previous one succeeded. A raising call therefore ends the action with its own error. It succeeds, returning `None`, exactly when all three succeed. |
| LoginPage.ManualEnterMfaCode | pages/login_page.py:80-97 | never fails; twenty one-second sleeps |
| LoginPage.ClickVerify | pages/login_page.py:115-117 | a click on Verify followed by network idle. It succeeds, returning `None`, exactly when both succeed. A raising click ends it at once. |
| LoginPage.CheckDontShowAgain | pages/login_page.py:119-127 | never raises; waits for the checkbox and ticks it exactly when the wait succeeded |
| LoginPage.ClickStaySignedInYes | pages/login_page.py:129-137 | never raises and never clicks No; without a Yes button it does nothing after the wait; with one, it waits for "don't show again", ticks it if it appeared, clicks Yes and, if the click went through, waits for the network |
| LoginPage.ClickStaySignedInNo | pages/login_page.py:139-141 | never clicks Yes. The log is the click on No, then the network wait only after the click succeeded, so a raising call ends it with its own error. It succeeds, returning `None`, exactly when both succeed. |
| LoginPage.DashboardHeadingText | pages/login_page.py:143-146 | the wait for the heading, then the read only after the wait succeeded, so a raising wait ends it with its own error. It succeeds exactly when both succeed, and then the result is the text read. |
| LoginPage.VerifyDashboardHeading | pages/login_page.py:148-151 | an error waiting for or reading the heading propagates unchanged. A heading with no text raises the `None.lower()` AttributeError right after the read, with no further call. Otherwise the result is exactly whether the lower-cased expected text occurs in the lower-cased heading. |
| LoginPage.HeadingMatches | pages/login_page.py:151 | true exactly when lower(expected) occurs at some position of lower(heading) |
| LoginPage.HeadingMatchIgnoresCase | pages/login_page.py:151 | lower-casing either argument first does not change the match |
| LoginPage.GetErrorMessage | pages/login_page.py:153-159 | never raises; when the wait and the read both succeed, the result is the text read; when either raises, the result is `None`, and a failed wait means nothing is read |
| LoginPage.IsErrorVisible | pages/login_page.py:161-163 | exactly "`get_error_message` returned something other than None", which is: the wait and the read succeeded and the read gave text |
| LoginPage.LoginPlan | pages/login_page.py:173-186 | the fixed step order: Microsoft sign-in, email, next, password, sign-in, MFA pause, then Yes exactly when `stay_signed_in` is set and No otherwise, then the heading read |
| LoginPage.RunPlan | pages/login_page.py:173-186 | runs the steps in order and only appends calls; the first step that raises ends the flow with its error; after a step that succeeds the run goes on with the remaining steps from where it left off; a successful run returns nothing |
| LoginPage.RunPlanAppend | pages/login_page.py:173-186 | running a concatenated plan is running the first part and then, only if it succeeded, the second part from where the first left off |
| LoginPage.RunPlanEndsWithHeadingRead | pages/login_page.py:173-186 | a successful run whose last step is the heading read ends with a successful wait for the heading and a successful read of it |
| LoginPage.CompleteFullLogin | pages/login_page.py:173-186 | the first click's error ends the login at once; a completed login returns nothing and has just waited for and read the dashboard heading |
| LoginPage.CompleteFullLoginHappyPath | pages/login_page.py:173-186 | when every call succeeds, the login makes exactly each step's calls, in the fixed order |
| LoginPage.CompleteFullLoginAnswersPrompt | pages/login_page.py:182-185 | when every call succeeds, Yes is clicked exactly when `stay_signed_in` is set and No exactly when it is not |
| LoginPage.HappyLoginNeverClicksVerify | pages/login_page.py:173-186 | as written: when every call succeeds, the login completes without ever clicking Verify |
| LoginPage.VerifiedLoginPlan | pages/login_page.py:80-97 | the corrected step order: the steps as written with `click_verify` inserted right after the MFA pause |
| LoginPage.CompleteFullLoginVerified | pages/login_page.py:80-97 | the corrected login: a failure is the error of the last call it made, and a completed run returns nothing and has just read the dashboard heading |
| LoginPage.VerifiedLoginClicksVerifyAfterPause | pages/login_page.py:80-97 | when every call succeeds, the corrected login makes the calls of the login as written with exactly the Verify click and its network wait inserted after the MFA countdown |
| OverviewPage.OverviewUrl | pages/it_assert_inventory/overview_page.py:21 | the base URL followed by `/it-asset-inventory/overview` |
| OverviewPage.GetLocator | pages/it_assert_inventory/overview_page.py:62-64 | the table's selector for a known key, the empty string for any other key |
| OverviewPage.GetLocatorEmptyIffUnknown | pages/it_assert_inventory/overview_page.py:24-64 | `_get_locator` returns the empty string exactly for a key that is not in the table, because every table entry is non-empty |
| OverviewPage.SectionSelector | pages/it_assert_inventory/overview_page.py:97 | `:text("`, then the section name, then `")` |
| OverviewPage.LocateSection | pages/it_assert_inventory/overview_page.py:95-103 | waits up to 10 s on `:text("<name>")`; the section when the wait succeeds, otherwise `None` in place of any exception |
| OverviewPage.CountMetricCards | pages/it_assert_inventory/overview_page.py:136-149 | never raises; the number of cards when the wait on the metric-card selector succeeds, otherwise 0 |
| OverviewPage.IsValueNumeric | pages/it_assert_inventory/overview_page.py:186-188 | true exactly when the text holds at least one decimal digit |
| OverviewPage.StripKeepsDigits | pages/it_assert_inventory/overview_page.py:199-200 | stripping whitespace never changes whether a value holds a digit |
| OverviewPage.ScanValues | pages/it_assert_inventory/overview_page.py:198-206 | passes exactly when every value's stripped text holds a digit; otherwise the verdict is decided by the first value in page order that fails |
| OverviewPage.VerifyAllMetricValuesNumeric | pages/it_assert_inventory/overview_page.py:190-208 | a lookup error becomes False with the wrapped error message; an empty list gives the "No metric values found" message; a non-empty list gets the scan's verdict: True with the all-numeric message exactly when every value passes, otherwise the message naming the first value in page order that fails |
| OverviewPage.ScanStopsAtFirstFailure | pages/it_assert_inventory/overview_page.py:198-204 | after the first failing value, no later value can change the verdict |
| OverviewPage.MissingCards | pages/it_assert_inventory/overview_page.py:239 | a card is listed exactly when it is one of the names and not visible |
| OverviewPage.MissingCardsAppend | pages/it_assert_inventory/overview_page.py:239 | the missing-card filter keeps the order of the card list |
| OverviewPage.VerifyAllSecurityPostureCards | pages/it_assert_inventory/overview_page.py:230-244 | true exactly when all four cards are visible; otherwise `Missing cards: ` followed by the missing names in fixed order, joined by `, ` |
| OverviewPage.NoneMissingIffAllVisible | pages/it_assert_inventory/overview_page.py:239-244 | no card is missing exactly when every card is visible |
| OverviewPage.NoCardVisibleMessage | pages/it_assert_inventory/overview_page.py:232-242 | with no card visible, the message lists all four names in the order Critical Assets, Non-Compliant Assets, Inactive Devices, Compliance Coverage |

## Left out

- Playwright itself: what a selector matches, load states, timeouts in milliseconds. `BasePage.Browser` is an arbitrary oracle that answers each call. Contracts without a precondition hold for every browser behaviour. `CompleteFullLoginHappyPath`, `CompleteFullLoginAnswersPrompt`, `HappyLoginNeverClicksVerify` and `VerifiedLoginClicksVerifyAfterPause` hold only for a browser on which every call succeeds (`AlwaysOk`).
- Time: `time.time()`, `time.sleep` and `datetime.now()`. They become integer-tick readings, logged `Sleep` calls and timestamp parameters. The float `poll_interval` and `delay` are whole ticks.
- WaitHelpers.WaitForCondition: assumes the clock eventually reaches the timeout; a clock that never advances is not modelled.
- Logging, `print`, Allure attachments, directory creation and file writes in `after_scenario`.
- `get_int_env` and the integer settings (`SLOW_MO`, timeouts, performance thresholds), because Python's `int()` parsing is not modelled; `get_performance_thresholds` and `get_keycloak_config` only repackage constants.
- `load_dotenv`: the model starts from the environment after the `.env` file has been loaded.
- Unicode: `str.isalnum`, `str.lower`, `str.isspace` and `\d` are restricted to ASCII.
- The CommonLocators constants and its builders other than `button_with_text` (`input_by_placeholder`, `link_with_text`), which are single format strings.
- `wait_for_element_state`, `wait_for_text_to_appear` and `manual_wait_with_countdown` in utils/wait_helpers.py: each is a single Playwright call or a countdown of sleeps.
- In pages/login_page.py: `click_sign_in_with_microsoft` and `click_next` are single `click_and_wait` calls and appear only as the `MicrosoftSignIn` and `ClickNext` login steps. `click_team_button`, `select_team_from_dropdown` and `complete_full_login_with_team` use role and label lookups that this model does not have.
- LoginPage.CompleteFullLogin: its own contract covers the first step's error and a completed run. The calls of any other partial run follow from `RunPlan`'s step-by-step contract and `RunPlanAppend`, and the exact call sequence is stated only for a browser on which every call succeeds.
- OverviewPage members that are single visibility queries: `is_section_visible`, `is_section_title_visible`, `is_metric_card_visible`, the card-specific wrappers, `is_overview_page_displayed`, `verify_page_loaded`, and the Endpoint Devices checks. `VerifyAllSecurityPostureCards` takes `is_metric_card_visible` as a parameter.
- OverviewPage.VerifyAllMetricValuesNumeric: the exception text is the message the oracle supplies. `get_all_metric_values` swallows its wait error, and that is folded into the lookup result.
- The SQL constant strings in database/sql_query.py, whose meaning lives in PostgreSQL; utils/db_helper.py and the live-database scripts.
- The step definitions, conftest.py and config/api_config.py.

## Findings

| source | as written | input that shows it | evidently intended | confidence | as-written member | corrected member |
|---|---|---|---|---|---|---|
| database/sql_query.py:343-352 | `WHERE ` is always written, followed by the joined conditions | the empty filter `{}` gives `SELECT * FROM users WHERE  ORDER BY created_at DESC;`, which PostgreSQL rejects | omit `WHERE` when there are no conditions | medium; not executed | SqlQuery.EmptyFilterLeavesDanglingWhere | SqlQuery.GuardedWhereHasCondition |
| pages/login_page.py:173-186 | `manual_enter_mfa_code` announces that the script will click Verify, but `complete_full_login` goes straight from the MFA pause to the stay-signed-in prompt and never calls `click_verify` | any run where every call succeeds: the call log holds no click on `input[type="submit"][value="Verify"]` | call `click_verify` right after `manual_enter_mfa_code` | low; not executed (the sign-in page may submit a typed code by itself) | LoginPage.HappyLoginNeverClicksVerify | LoginPage.VerifiedLoginClicksVerifyAfterPause |

=== FILE: base_page.dfy ===
/** The browser as the page objects see it (pages/base_page.py).

    The browser is an oracle: `Browser` answers the n-th call a page object
    makes. A page action takes the log of calls made so far, appends the
    calls it makes, and returns its result or the exception it raises. */
module BasePage {
  import opened Wrappers

  /** One call into Playwright. */
  datatype Call =
    | Goto(url: string)                        // page.goto(url, wait_until="networkidle")
    | WaitFor(selector: string, timeout: nat)  // page.wait_for_selector(selector, state="visible", timeout)
    | Fill(selector: string, value: string)    // page.fill(selector, value)
    | Click(selector: string)                  // page.click(selector)
    | LoadState(state: string)                 // page.wait_for_load_state(state)
    | Check(selector: string)                  // page.check(selector)
    | TextContent(selector: string)            // page.locator(selector).first.text_content()
    | Sleep(seconds: nat)                      // time.sleep

  /** An exception a call raises: Playwright's timeout error or any other. */
  datatype Exc = TimeoutExc | OtherExc(message: string)

  /** The browser's answer to one call: success, with the text read for
      `TextContent`, or an exception. */
  datatype Reply = Ok(text: Option<string>) | Raise(exc: Exc)

  type Browser = (nat, Call) -> Reply

  /** A page action's calls so far and its outcome. */
  datatype Step<+T> = Step(log: seq<Call>, result: Result<T, Exc>)

  /** The most recent call in `log` raised `e`: an exception always
      surfaces from the call that raised it, with nothing called after. */
  predicate RaisedLast(b: Browser, log: seq<Call>, e: Exc) {
    |log| > 0 && b(|log| - 1, log[|log| - 1]) == Raise(e)
  }

  /** What a page action may promise about its log: it only appends, and
      a failure comes from the last call it made. */
  predicate Extends<T>(b: Browser, log: seq<Call>, s: Step<T>) {
    |log| <= |s.log| && s.log[..|log|] == log
    && (s.result.Failure? ==> RaisedLast(b, s.log, s.result.error))
  }

  /** Extending an extension extends the original log. */
  lemma ExtendsTrans<T, U>(b: Browser, log: seq<Call>, s1: Step<T>, s2: Step<U>)
    requires Extends(b, log, s1) && Extends(b, s1.log, s2)
    ensures Extends(b, log, s2)
  {
    assert s2.log[..|log|] == s2.log[..|s1.log|][..|log|];
  }

  /** Makes one call. Only `TextContent` returns a value; every other
      Playwright action returns `None`. */
  function Exec(b: Browser, log: seq<Call>, call: Call): (s: Step<Option<string>>)
    ensures s.log == log + [call]
    ensures Extends(b, log, s)
    ensures s.result.Success? <==> b(|log|, call).Ok?
    ensures s.result.Success? && call.TextContent? ==> s.result.value == b(|log|, call).text
    ensures s.result.Success? && !call.TextContent? ==> s.result.value.None?
  {
    match b(|log|, call)
    case Ok(t) => Step(log + [call], Success(if call.TextContent? then t else None))
    case Raise(e) => Step(log + [call], Failure(e))
  }

  /** `BasePage.navigate(url)`. */
  function Navigate(b: Browser, log: seq<Call>, url: string): (s: Step<Option<string>>)
    ensures s.log == log + [Goto(url)] && Extends(b, log, s)
    ensures s.result.Success? <==> b(|log|, Goto(url)).Ok?
    ensures s.result.Success? ==> s.result.value.None?
  {
    Exec(b, log, Goto(url))
  }

  /** `BasePage.wait_for_selector(selector, state="visible", timeout)`. */
  function WaitForSelector(b: Browser, log: seq<Call>, selector: string, timeout: nat): (s: Step<Option<string>>)
    ensures s.log == log + [WaitFor(selector, timeout)] && Extends(b, log, s)
    ensures s.result.Success? <==> b(|log|, WaitFor(selector, timeout)).Ok?
    ensures s.result.Success? ==> s.result.value.None?
  {
    Exec(b, log, WaitFor(selector, timeout))
  }

  /** `BasePage.click_and_wait(selector)`: click, then wait for the network
      to go idle; a failed click skips the wait. */
  function ClickAndWait(b: Browser, log: seq<Call>, selector: string): (s: Step<Option<string>>)
    ensures Extends(b, log, s)
    ensures s.log == log + [Click(selector)] || s.log == log + [Click(selector), LoadState("networkidle")]
    ensures s.result.Success? ==> s.log == log + [Click(selector), LoadState("networkidle")]
    // a raising click ends the action with its error, before any wait
    ensures b(|log|, Click(selector)).Raise? ==>
              s.log == log + [Click(selector)] && s.result == Failure(b(|log|, Click(selector)).exc)
    // neither the click's nor the wait's error is swallowed
    ensures s.result.Success? <==>
              b(|log|, Click(selector)).Ok? && b(|log| + 1, LoadState("networkidle")).Ok?
    ensures s.result.Success? ==> s.result.value.None?
  {
    var c := Exec(b, log, Click(selector));
    if c.result.Failure? then c
    else Exec(b, c.log, LoadState("networkidle"))
  }
}

=== FILE: environment.dfy ===
/** Failure-artifact names (features/environment.py): the filename
    sanitiser and the trace and screenshot paths built in `after_scenario`.
    Timestamps come from the clock and are parameters here. */
module Artifacts {
  import opened Text

  /** Characters `_sanitize_filename` keeps as they are. */
  predicate IsSafe(c: char) {
    IsAlnum(c) || c == '.' || c == '_' || c == '-'
  }

  /** Characters `_sanitize_filename` turns into `_`. */
  predicate IsSeparator(c: char) {
    c == ' ' || c == '/' || c == '\\'
  }

  /** `s.replace(from, to)` for one-character `from` and `to`. */
  function ReplaceChar(s: string, from: char, to: char): (r: string)
    ensures |r| == |s|
    ensures forall i :: 0 <= i < |s| ==> r[i] == if s[i] == from then to else s[i]
  {
    seq(|s|, i requires 0 <= i < |s| => if s[i] == from then to else s[i])
  }

  /** `"".join(c for c in s if c.isalnum() or c in "._-")`. */
  function KeepSafe(s: string): (r: string)
    ensures |r| <= |s|
    ensures forall i :: 0 <= i < |r| ==> IsSafe(r[i])
  {
    if |s| == 0 then ""
    else (if IsSafe(s[0]) then [s[0]] else "") + KeepSafe(s[1..])
  }

  /** `_sanitize_filename`: spaces and both slashes become `_`, then every
      character that is not alphanumeric, `.`, `_` or `-` is dropped. */
  function SanitizeFilename(s: string): (r: string)
    ensures |r| <= |s|
    ensures forall i :: 0 <= i < |r| ==> IsSafe(r[i])
  {
    KeepSafe(ReplaceChar(ReplaceChar(ReplaceChar(s, ' ', '_'), '/', '_'), '\\', '_'))
  }

  /** What one input character contributes to the sanitised name. */
  function Piece(c: char): string
  {
    if IsSeparator(c) then "_" else if IsSafe(c) then [c] else ""
  }

  /** Reference definition: the sanitised name, one character at a time. */
  function SanitizeByPiece(s: string): string
  {
    if |s| == 0 then "" else Piece(s[0]) + SanitizeByPiece(s[1..])
  }

  /** The two-pass sanitiser of the source (replace, then filter) is the
      character-by-character map `Piece`. */
  lemma {:induction false} SanitizeIsPiecewise(s: string)
    ensures SanitizeFilename(s) == SanitizeByPiece(s)
  {
    var t := ReplaceChar(ReplaceChar(ReplaceChar(s, ' ', '_'), '/', '_'), '\\', '_');
    if |s| > 0 {
      var t' := ReplaceChar(ReplaceChar(ReplaceChar(s[1..], ' ', '_'), '/', '_'), '\\', '_');
      assert t[1..] == t';
      SanitizeIsPiecewise(s[1..]);
      assert (if IsSafe(t[0]) then [t[0]] else "") == Piece(s[0]);
    }
  }

  /** Sanitising works character by character: it distributes over
      concatenation, so the kept characters stay in their original order. */
  lemma {:induction false} SanitizeAppend(a: string, b: string)
    ensures SanitizeFilename(a + b) == SanitizeFilename(a) + SanitizeFilename(b)
  {
    SanitizeIsPiecewise(a + b);
    SanitizeIsPiecewise(a);
    SanitizeIsPiecewise(b);
    PiecewiseAppend(a, b);
  }

  lemma {:induction false} PiecewiseAppend(a: string, b: string)
    ensures SanitizeByPiece(a + b) == SanitizeByPiece(a) + SanitizeByPiece(b)
  {
    if |a| > 0 {
      assert (a + b)[1..] == a[1..] + b;
      PiecewiseAppend(a[1..], b);
    } else {
      assert a + b == b;
    }
  }

  /** On a single character: a space or slash becomes `_`, a safe character
      is kept, anything else is dropped. */
  lemma SanitizeOneChar(c: char)
    ensures IsSeparator(c) ==> SanitizeFilename([c]) == "_"
    ensures IsSafe(c) ==> SanitizeFilename([c]) == [c]
    ensures !IsSeparator(c) && !IsSafe(c) ==> SanitizeFilename([c]) == ""
  {
    SanitizeIsPiecewise([c]);
    assert SanitizeByPiece([c]) == Piece(c) + SanitizeByPiece([]);
  }

  /** A name made only of safe characters is left unchanged. */
  lemma {:induction false} SanitizeKeepsSafeNames(s: string)
    requires forall i :: 0 <= i < |s| ==> IsSafe(s[i])
    ensures SanitizeFilename(s) == s
  {
    SanitizeIsPiecewise(s);
    PiecewiseKeepsSafe(s);
  }

  lemma {:induction false} PiecewiseKeepsSafe(s: string)
    requires forall i :: 0 <= i < |s| ==> IsSafe(s[i])
    ensures SanitizeByPiece(s) == s
  {
    if |s| > 0 {
      PiecewiseKeepsSafe(s[1..]);
      assert Piece(s[0]) == [s[0]];
      assert s == [s[0]] + s[1..];
    }
  }

  /** Sanitising twice is sanitising once. */
  lemma SanitizeIdempotent(s: string)
    ensures SanitizeFilename(SanitizeFilename(s)) == SanitizeFilename(s)
  {
    SanitizeKeepsSafeNames(SanitizeFilename(s));
  }

  /** The sanitised name never contains a slash. */
  lemma SanitizedHasNoSlash(s: string)
    ensures forall i :: 0 <= i < |SanitizeFilename(s)| ==> SanitizeFilename(s)[i] != '/'
  {
  }

  const TraceDir: string := "reports/traces"

  /** The trace file saved for a failed scenario:
      `reports/traces/<sanitised name>_<timestamp>.zip`. */
  function TracePath(scenarioName: string, timestamp: string): (r: string)
    ensures |r| == |TraceDir| + 1 + |SanitizeFilename(scenarioName)| + 1 + |timestamp| + 4
    ensures r[..|TraceDir| + 1] == "reports/traces/"
    ensures r[|TraceDir| + 1..|TraceDir| + 1 + |SanitizeFilename(scenarioName)|] == SanitizeFilename(scenarioName)
    ensures r[|r| - 5 - |timestamp|..|r| - 4] == "_" + timestamp
    ensures r[|r| - 4..] == ".zip"
  {
    TraceDir + "/" + SanitizeFilename(scenarioName) + "_" + timestamp + ".zip"
  }

  /** A trace file always lands directly inside the trace directory: once
      the timestamp has no slash, nothing after the directory prefix does. */
  lemma TracePathStaysInTraceDir(scenarioName: string, timestamp: string)
    requires forall i :: 0 <= i < |timestamp| ==> timestamp[i] != '/'
    ensures var r := TracePath(scenarioName, timestamp);
            forall i :: |TraceDir| + 1 <= i < |r| ==> r[i] != '/'
  {
    var r := TracePath(scenarioName, timestamp);
    var n := SanitizeFilename(scenarioName);
    assert r[|TraceDir| + 1..] == n + "_" + timestamp + ".zip";
    forall i | |TraceDir| + 1 <= i < |r|
      ensures r[i] != '/'
    {
      var k := i - (|TraceDir| + 1);
      assert r[i] == (n + "_" + timestamp + ".zip")[k];
      if k < |n| {
        assert r[i] == n[k];
      }
    }
  }

  /** `os.path.join(dir, file)` on POSIX, for two components. */
  function PathJoin(dir: string, file: string): (r: string)
    // an absolute file name discards the directory
    ensures |file| > 0 && file[0] == '/' ==> r == file
    // otherwise the directory, at most one added separator, then the file name
    ensures !(|file| > 0 && file[0] == '/') ==>
              |dir| + |file| <= |r| <= |dir| + |file| + 1
              && r[..|dir|] == dir && r[|r| - |file|..] == file
    ensures !(|file| > 0 && file[0] == '/') && dir != "" ==>
              r[|dir| - 1] == '/' || (|r| > |dir| && r[|dir|] == '/')
    // a directory that is empty or already ends in `/` gets nothing added
    ensures !(|file| > 0 && file[0] == '/') && (dir == "" || dir[|dir| - 1] == '/') ==> r == dir + file
    // the one added character is always the separator
    ensures !(|file| > 0 && file[0] == '/') && |r| == |dir| + |file| + 1 ==> r[|dir|] == '/'
  {
    if |file| > 0 && file[0] == '/' then file
    else if dir == "" || dir[|dir| - 1] == '/' then dir + file
    else dir + "/" + file
  }

  /** The screenshot saved for a failed scenario:
      `os.path.join(SCREENSHOT_DIR, f"{name}_{timestamp}.png")`. */
  function ScreenshotPath(screenshotDir: string, scenarioName: string, timestamp: string): (r: string)
    ensures var file := SanitizeFilename(scenarioName) + "_" + timestamp + ".png";
            |r| >= |file| && r[|r| - |file|..] == file
    // the directory, then at most one separator, then the file name
    ensures var file := SanitizeFilename(scenarioName) + "_" + timestamp + ".png";
            |r| <= |screenshotDir| + |file| + 1
            && (|r| == |screenshotDir| + |file| + 1 ==> r[|screenshotDir|] == '/')
  {
    PathJoin(screenshotDir, SanitizeFilename(scenarioName) + "_" + timestamp + ".png")
  }

  /** The screenshot path always starts with the configured directory: the
      sanitised file name can never be absolute, so `os.path.join` never
      discards the directory. */
  lemma ScreenshotPathInDir(screenshotDir: string, scenarioName: string, timestamp: string)
    ensures var r := ScreenshotPath(screenshotDir, scenarioName, timestamp);
            |r| > |screenshotDir| && r[..|screenshotDir|] == screenshotDir
    ensures var r := ScreenshotPath(screenshotDir, scenarioName, timestamp);
            r[|r| - 4..] == ".png"
  {
    var file := SanitizeFilename(scenarioName) + "_" + timestamp + ".png";
    SanitizedHasNoSlash(scenarioName);
    if |SanitizeFilename(scenarioName)| == 0 {
      assert file[0] == '_';
    } else {
      assert file[0] == SanitizeFilename(scenarioName)[0];
    }
  }

  /** Artifact files `after_scenario` writes for a scenario: the trace file
      when tracing is on and the scenario failed, then the screenshot when
      screenshots on failure are on and it failed. Each block reads the
      clock on its own, hence two timestamps. */
  function FailureArtifacts(trace: bool, screenshotOnFailure: bool, failed: bool,
                            screenshotDir: string, scenarioName: string,
                            traceStamp: string, shotStamp: string): (r: seq<string>)
    ensures !failed ==> r == []
    ensures |r| == (if failed && trace then 1 else 0) + (if failed && screenshotOnFailure then 1 else 0)
    ensures failed && trace ==> r[0] == TracePath(scenarioName, traceStamp)
    ensures failed && screenshotOnFailure ==>
              r[|r| - 1] == ScreenshotPath(screenshotDir, scenarioName, shotStamp)
  {
    (if trace && failed then [TracePath(scenarioName, traceStamp)] else [])
    + (if screenshotOnFailure && failed then [ScreenshotPath(screenshotDir, scenarioName, shotStamp)] else [])
  }
}

=== FILE: locator_helpers.dfy ===
/** Ordered fallback selector resolution and the selector-string builders
    (utils/locator_helpers.py).

    The browser is an oracle: the i-th entry of `outcomes` is how the wait
    on the i-th candidate selector (the primary first, then each fallback in
    list order) ends. */
module LocatorHelpers {
  import opened Wrappers
  import opened Text

  /** How one `page.wait_for_selector` call ends. `Raised` is any error
      other than Playwright's timeout error. */
  datatype WaitOutcome = Reached | TimedOut | Raised(error: string)

  /** A Playwright locator, identified by the selector it is bound to. */
  datatype Locator = Locator(selector: string)

  /** A primary selector with an ordered list of fallbacks. */
  datatype LocatorStrategy = LocatorStrategy(primary: string, fallbacks: seq<string>)

  /** `LocatorStrategy(primary, fallbacks)`: a missing fallback list becomes
      the empty list. */
  function NewStrategy(primary: string, fallbacks: Option<seq<string>>): (r: LocatorStrategy)
    ensures r.primary == primary
    ensures fallbacks.None? ==> r.fallbacks == []
    ensures fallbacks.Some? ==> r.fallbacks == fallbacks.value
  {
    LocatorStrategy(primary, fallbacks.GetOr([]))
  }

  /** Every selector `find_element` may wait on, in the order it tries them. */
  function Candidates(s: LocatorStrategy): (c: seq<string>)
    ensures |c| == 1 + |s.fallbacks|
    ensures c[0] == s.primary && c[1..] == s.fallbacks
  {
    [s.primary] + s.fallbacks
  }

  /** `find_element`: waits on the primary and then on each fallback until
      one reaches the requested state. A timeout moves on to the next
      candidate; any other error propagates (`Failure`). `waited` lists the
      selectors waited on, in order. The primary and the fallback loop of
      the source are folded into one loop over `Candidates(s)`. */
  method FindElement(s: LocatorStrategy, outcomes: seq<WaitOutcome>)
    returns (r: Result<Option<Locator>, string>, waited: seq<string>)
    requires |outcomes| == |Candidates(s)|
    // each candidate is waited on at most once, in order
    ensures 1 <= |waited| <= 1 + |s.fallbacks|
    ensures waited == Candidates(s)[..|waited|]
    // every wait except the last one timed out
    ensures forall j :: 0 <= j < |waited| - 1 ==> outcomes[j] == TimedOut
    // the last wait decides the result
    ensures r.Success? && r.value.Some? <==> outcomes[|waited| - 1] == Reached
    ensures r.Success? && r.value.Some? ==> r.value.value == Locator(waited[|waited| - 1])
    ensures r.Failure? <==> outcomes[|waited| - 1].Raised?
    ensures r.Failure? ==> r.error == outcomes[|waited| - 1].error
    // absent exactly when every candidate timed out
    ensures r == Success(None) <==> forall j :: 0 <= j < |outcomes| ==> outcomes[j] == TimedOut
    ensures r == Success(None) ==> |waited| == |outcomes|
    // a primary that is found short-circuits the fallbacks
    ensures outcomes[0] == Reached ==> r == Success(Some(Locator(s.primary))) && waited == [s.primary]
  {
    var cands := Candidates(s);
    waited := [];
    var i := 0;
    while i < |cands|
      invariant 0 <= i <= |cands|
      invariant waited == cands[..i]
      invariant forall j :: 0 <= j < i ==> outcomes[j] == TimedOut
    {
      waited := waited + [cands[i]];
      match outcomes[i]
      case Reached =>
        return Success(Some(Locator(cands[i]))), waited;
      case Raised(e) =>
        return Failure(e), waited;
      case TimedOut =>
      i := i + 1;
    }
    r := Success(None);
  }

  /** A strategy built without a fallback list is the strategy built with
      an empty one, so `find_element` behaves identically on both. */
  lemma NoFallbacksIsEmptyFallbacks(primary: string)
    ensures NewStrategy(primary, None) == NewStrategy(primary, Some([]))
    ensures Candidates(NewStrategy(primary, None)) == [primary]
  {
  }

  /** `build_data_testid_selector`: `[data-testid="<id>"]`. */
  function DataTestIdSelector(testid: string): (r: string)
    ensures |r| == |testid| + 16
    ensures r[..14] == "[data-testid=\"" && r[|r| - 2..] == "\"]"
    ensures r[14..|r| - 2] == testid
  {
    "[data-testid=\"" + testid + "\"]"
  }

  /** `build_role_selector`: the name filter is added only when the name is
      given and non-empty. */
  function RoleSelector(role: string, name: Option<string>): (r: string)
    ensures |r| >= 5 + |role| && r[..5 + |role|] == "role=" + role
    ensures name.None? || name == Some("") <==> |r| == 5 + |role|
    ensures name.Some? && name.value != "" ==>
              r[5 + |role|..] == "[name=\"" + name.value + "\"]"
  {
    if name.Some? && name.value != "" then "role=" + role + "[name=\"" + name.value + "\"]"
    else "role=" + role
  }

  /** `build_text_selector`: quotes the text only for an exact match. */
  function TextSelector(text: string, exact: bool): (r: string)
    ensures |r| >= 5 && r[..5] == "text="
    ensures exact ==> r[5..] == "\"" + text + "\""
    ensures !exact ==> r[5..] == text
  {
    if exact then "text=\"" + text + "\"" else "text=" + text
  }

  /** `combine_selectors(*selectors, operator=op)`. */
  function CombineSelectors(selectors: seq<string>, op: string): (r: string)
    ensures |selectors| == 0 ==> r == ""
    ensures |selectors| == 1 ==> r == selectors[0]
    ensures |selectors| > 0 ==> |r| >= |selectors[0]| && r[..|selectors[0]|] == selectors[0]
  {
    if |selectors| == 0 then ""
    else
      JoinStartsWithFirst(selectors, op);
      Join(selectors, op)
  }

  /** The combined selector holds every part and `|selectors| - 1` copies of
      the operator. */
  lemma {:induction false} CombineSelectorsLength(selectors: seq<string>, op: string)
    ensures |selectors| > 0 ==>
              |CombineSelectors(selectors, op)| == TotalLength(selectors) + (|selectors| - 1) * |op|
    ensures |selectors| == 0 ==> CombineSelectors(selectors, op) == ""
  {
    if |selectors| > 1 {
      CombineSelectorsLength(selectors[1..], op);
      assert TotalLength(selectors) == |selectors[0]| + TotalLength(selectors[1..]);
    }
  }

  /** Combining splits at any point: the two halves joined by the operator. */
  lemma {:induction false} CombineSelectorsAppend(xs: seq<string>, ys: seq<string>, op: string)
    requires |xs| > 0 && |ys| > 0
    ensures CombineSelectors(xs + ys, op) == CombineSelectors(xs, op) + op + CombineSelectors(ys, op)
  {
    if |xs| == 1 {
      assert (xs + ys)[1..] == ys;
    } else {
      CombineSelectorsAppend(xs[1..], ys, op);
      assert (xs + ys)[1..] == xs[1..] + ys;
    }
  }

  /** Sum of the lengths of `parts`. */
  function TotalLength(parts: seq<string>): nat
  {
    if |parts| == 0 then 0 else |parts[0]| + TotalLength(parts[1..])
  }

  /** `CommonLocators.button_with_text`: a button containing the text, or
      an input whose value is the text, as one comma-separated selector. */
  function ButtonWithText(text: string): (r: string)
    ensures r == CombineSelectors(["button:has-text(\"" + text + "\")",
                                   "input[value=\"" + text + "\"]"], ", ")
  {
    var parts := ["button:has-text(\"" + text + "\")", "input[value=\"" + text + "\"]"];
    assert parts[1..] == [parts[1]];
    assert Join(parts, ", ") == parts[0] + ", " + parts[1];
    assert "\")" + ", " + "input[value=\"" == "\"), input[value=\"";
    "button:has-text(\"" + text + "\"), input[value=\"" + text + "\"]"
  }
}

=== FILE: login_page.dfy ===
/** The Microsoft single-sign-on login page object (pages/login_page.py). */
module LoginPage {
  import opened Wrappers
  import opened Text
  import opened BasePage

  const SignInWithMicrosoftButton: string := "button:has-text('Sign in with Microsoft')"
  const EmailInput: string := "input[type=\"email\"][name=\"loginfmt\"]"
  const EmailInputAlt: string := "input[placeholder*=\"email\"]"
  const PasswordInput: string := "input[type=\"password\"][name=\"passwd\"]"
  const PasswordInputAlt: string := "input[placeholder*=\"password\"]"
  const NextButton: string := "input[type=\"submit\"][value=\"Next\"]"
  const SignInButton: string := "input[type=\"submit\"][value=\"Sign in\"]"
  const MfaCodeInput: string := "input[name=\"otc\"]"
  const MfaCodeInputAlt: string := "input[placeholder*=\"code\"]"
  const VerifyButton: string := "input[type=\"submit\"][value=\"Verify\"]"
  const DontShowAgainCheckbox: string := "input[type=\"checkbox\"]"
  const YesButton: string := "input[type=\"submit\"][value=\"Yes\"]"
  const NoButton: string := "input[type=\"submit\"][value=\"No\"]"
  const DashboardHeading: string := "h1, h2, [role=\"heading\"]"
  const ErrorMessage: string := ".error-message, [role=\"alert\"], .alert-error"

  /** Seconds `manual_enter_mfa_code` leaves for typing the code. */
  const MfaPauseSeconds: nat := 20

  /** The countdown of `manual_enter_mfa_code`: one one-second sleep per
      second of the pause. */
  function MfaCountdown(): (r: seq<Call>)
    ensures |r| == MfaPauseSeconds
    ensures forall i :: 0 <= i < |r| ==> r[i] == Sleep(1)
  {
    seq(MfaPauseSeconds, _ => Sleep(1))
  }

  /** `goto_sign_in`: navigates to the base URL followed by `/sign-in`. */
  function GotoSignIn(b: Browser, log: seq<Call>, baseUrl: string): (s: Step<Option<string>>)
    ensures Extends(b, log, s)
    ensures s.log == log + [Goto(baseUrl + "/sign-in")]
    ensures s.result.Success? <==> b(|log|, Goto(baseUrl + "/sign-in")).Ok?
    ensures s.result.Success? ==> s.result.value.None?
  {
    Navigate(b, log, baseUrl + "/sign-in")
  }

  /** The wait for `selector` at call `n` and the fill after it both
      reply Ok. */
  predicate FillOk(b: Browser, n: nat, selector: string, value: string, timeout: nat) {
    b(n, WaitFor(selector, timeout)).Ok? && b(n + 1, Fill(selector, value)).Ok?
  }

  /** The calls a wait-and-fill starting at call `n` makes: the wait, and
      the fill only when the wait replied Ok. */
  function FillCalls(b: Browser, n: nat, selector: string, value: string, timeout: nat): seq<Call> {
    [WaitFor(selector, timeout)] + (if b(n, WaitFor(selector, timeout)).Ok? then [Fill(selector, value)] else [])
  }

  /** The calls of "fill the primary input, else the alternate one": the
      primary's wait-and-fill, then the alternate's only when the primary's
      did not go through. */
  predicate FallbackLog(b: Browser, log: seq<Call>, primary: string, alternate: string, value: string,
                        timeout: nat, calls: seq<Call>) {
    var pl := log + FillCalls(b, |log|, primary, value, timeout);
    if FillOk(b, |log|, primary, value, timeout) then calls == pl
    else calls == pl + FillCalls(b, |pl|, alternate, value, timeout)
  }

  /** What "fill the primary input, else the alternate one" promises: the
      calls of `FallbackLog`; success exactly when the primary's calls, or
      else the alternate's, all reply Ok; and any failure is the error of
      the last call made. */
  predicate FallbackFill(b: Browser, log: seq<Call>, primary: string, alternate: string, value: string,
                         timeout: nat, s: Step<Option<string>>) {
    var pl := log + FillCalls(b, |log|, primary, value, timeout);
    && Extends(b, log, s)
    && FallbackLog(b, log, primary, alternate, value, timeout, s.log)
    && (s.result.Success? <==>
          FillOk(b, |log|, primary, value, timeout) || FillOk(b, |pl|, alternate, value, timeout))
    && (s.result.Success? ==> s.result.value.None?)
  }

  /** Waits for `selector` and fills it; fails if either call fails. */
  function WaitAndFill(b: Browser, log: seq<Call>, selector: string, value: string, timeout: nat): (s: Step<Option<string>>)
    ensures Extends(b, log, s)
    ensures s.log == log + FillCalls(b, |log|, selector, value, timeout)
    ensures s.result.Success? <==> FillOk(b, |log|, selector, value, timeout)
    ensures s.log == log + [WaitFor(selector, timeout)] || s.log == log + [WaitFor(selector, timeout), Fill(selector, value)]
    ensures s.result.Success? <==> s.log == log + [WaitFor(selector, timeout), Fill(selector, value)]
                                   && b(|log|, WaitFor(selector, timeout)).Ok?
                                   && b(|log| + 1, Fill(selector, value)).Ok?
    ensures s.result.Success? ==> s.result.value.None?
  {
    var w := WaitForSelector(b, log, selector, timeout);
    if w.result.Failure? then w else Exec(b, w.log, Fill(selector, value))
  }

  /** The shape of `enter_email` and `enter_password`: fill the primary
      input; if waiting for it or filling it raises anything, fill the
      alternate input instead, and let its errors propagate. */
  function FillPrimaryElseAlternate(b: Browser, log: seq<Call>, primary: string, alternate: string,
                                    value: string, timeout: nat): (s: Step<Option<string>>)
    ensures FallbackFill(b, log, primary, alternate, value, timeout, s)
  {
    var p := WaitAndFill(b, log, primary, value, timeout);
    if p.result.Success? then p else WaitAndFill(b, p.log, alternate, value, timeout)
  }

  /** `enter_email`. */
  function EnterEmail(b: Browser, log: seq<Call>, email: string): (s: Step<Option<string>>)
    ensures FallbackFill(b, log, EmailInput, EmailInputAlt, email, 5000, s)
    // a visible primary input is filled and the alternate is never touched
    ensures b(|log|, WaitFor(EmailInput, 5000)).Ok? && b(|log| + 1, Fill(EmailInput, email)).Ok? ==>
              s.log == log + [WaitFor(EmailInput, 5000), Fill(EmailInput, email)] && s.result.Success?
    // otherwise the result is the alternate's: fill or raise
    ensures s.result.Success? ==>
              |s.log| > |log| && (s.log[|s.log| - 1] == Fill(EmailInput, email) || s.log[|s.log| - 1] == Fill(EmailInputAlt, email))
  {
    FillPrimaryElseAlternate(b, log, EmailInput, EmailInputAlt, email, 5000)
  }

  /** `enter_password`. */
  function EnterPassword(b: Browser, log: seq<Call>, password: string): (s: Step<Option<string>>)
    ensures FallbackFill(b, log, PasswordInput, PasswordInputAlt, password, 5000, s)
    ensures b(|log|, WaitFor(PasswordInput, 5000)).Ok? && b(|log| + 1, Fill(PasswordInput, password)).Ok? ==>
              s.log == log + [WaitFor(PasswordInput, 5000), Fill(PasswordInput, password)] && s.result.Success?
    ensures s.result.Success? ==>
              |s.log| > |log| && (s.log[|s.log| - 1] == Fill(PasswordInput, password) || s.log[|s.log| - 1] == Fill(PasswordInputAlt, password))
  {
    FillPrimaryElseAlternate(b, log, PasswordInput, PasswordInputAlt, password, 5000)
  }

  /** `enter_mfa_code`: tries the primary input, then the alternate, then
      gives up silently; it never raises. */
  function EnterMfaCode(b: Browser, log: seq<Call>, code: string): (s: Step<Option<string>>)
    ensures Extends(b, log, s)
    ensures s.result.Success?
    ensures FallbackLog(b, log, MfaCodeInput, MfaCodeInputAlt, code, 10000, s.log)
    ensures var p := WaitAndFill(b, log, MfaCodeInput, code, 10000);
            p.result.Success? ==> s.log == p.log
    ensures var p := WaitAndFill(b, log, MfaCodeInput, code, 10000);
            p.result.Failure? ==> s.log == WaitAndFill(b, p.log, MfaCodeInputAlt, code, 10000).log
  {
    var s := FillPrimaryElseAlternate(b, log, MfaCodeInput, MfaCodeInputAlt, code, 10000);
    Step(s.log, Success(None))
  }

  /** `click_sign_in`: click, then wait for the network to go idle once
      more to see where the sign-in lands. */
  function ClickSignIn(b: Browser, log: seq<Call>): (s: Step<Option<string>>)
    ensures Extends(b, log, s)
    // the click, then each wait only after the previous call went through
    ensures || s.log == log + [Click(SignInButton)]
            || s.log == log + [Click(SignInButton), LoadState("networkidle")]
            || s.log == log + [Click(SignInButton), LoadState("networkidle"), LoadState("networkidle")]
    ensures s.result.Success? ==>
              s.log == log + [Click(SignInButton), LoadState("networkidle"), LoadState("networkidle")]
    ensures b(|log|, Click(SignInButton)).Raise? ==> s.log == log + [Click(SignInButton)] && s.result.Failure?
    ensures s.result.Success? <==>
              b(|log|, Click(SignInButton)).Ok? && b(|log| + 1, LoadState("networkidle")).Ok?
              && b(|log| + 2, LoadState("networkidle")).Ok?
    ensures s.result.Success? ==> s.result.value.None?
  {
    var c := ClickAndWait(b, log, SignInButton);
    if c.result.Failure? then c else Exec(b, c.log, LoadState("networkidle"))
  }

  /** `manual_enter_mfa_code`: a fixed pause for a person to type the code;
      sleeping cannot fail. */
  function ManualEnterMfaCode(b: Browser, log: seq<Call>): (s: Step<Option<string>>)
    ensures Extends(b, log, s) && s.result.Success?
    ensures s.log == log + MfaCountdown()
  {
    Step(log + MfaCountdown(), Success(None))
  }

  /** `click_verify`: clicks Verify on the MFA page and waits for the
      network to go idle; errors propagate. */
  function ClickVerify(b: Browser, log: seq<Call>): (s: Step<Option<string>>)
    ensures Extends(b, log, s)
    ensures s.log == log + [Click(VerifyButton)] || s.log == log + [Click(VerifyButton), LoadState("networkidle")]
    ensures b(|log|, Click(VerifyButton)).Raise? ==> s.log == log + [Click(VerifyButton)] && s.result.Failure?
    ensures s.result.Success? <==>
              b(|log|, Click(VerifyButton)).Ok? && b(|log| + 1, LoadState("networkidle")).Ok?
    ensures s.result.Success? ==> s.result.value.None?
  {
    ClickAndWait(b, log, VerifyButton)
  }

  /** `check_dont_show_again`: ticks the checkbox once it is visible; every
      error is swallowed. */
  function CheckDontShowAgain(b: Browser, log: seq<Call>): (s: Step<Option<string>>)
    ensures Extends(b, log, s) && s.result.Success?
    ensures s.log == log + [WaitFor(DontShowAgainCheckbox, 5000)]
                     + (if b(|log|, WaitFor(DontShowAgainCheckbox, 5000)).Ok? then [Check(DontShowAgainCheckbox)] else [])
  {
    var w := WaitForSelector(b, log, DontShowAgainCheckbox, 5000);
    var s := if w.result.Failure? then w else Exec(b, w.log, Check(DontShowAgainCheckbox));
    Step(s.log, Success(None))
  }

  /** The calls `click_stay_signed_in_yes` makes once Yes is visible,
      starting at call `n`: wait for "don't show again" and tick it if it
      appeared, then click Yes and, if the click went through, wait for the
      network. */
  function YesPathCalls(b: Browser, n: nat): seq<Call> {
    var tick := [WaitFor(DontShowAgainCheckbox, 5000)]
                + (if b(n, WaitFor(DontShowAgainCheckbox, 5000)).Ok? then [Check(DontShowAgainCheckbox)] else []);
    tick + [Click(YesButton)] + (if b(n + |tick|, Click(YesButton)).Ok? then [LoadState("networkidle")] else [])
  }

  lemma YesPathNeverClicksNo(b: Browser, n: nat)
    ensures Click(NoButton) !in YesPathCalls(b, n)
  {
    ClickedSelectorsDistinct();
  }

  /** Ticks "don't show again" if it appears, then clicks Yes and waits. */
  function TickAndClickYes(b: Browser, log: seq<Call>): (s: Step<Option<string>>)
    ensures Extends(b, log, s)
    ensures s.log == log + YesPathCalls(b, |log|)
  {
    var d := CheckDontShowAgain(b, log);
    ClickAndWait(b, d.log, YesButton)
  }

  /** `click_stay_signed_in_yes`: waits for Yes, ticks "don't show again",
      clicks Yes; swallows every error, so it never raises. */
  function ClickStaySignedInYes(b: Browser, log: seq<Call>): (s: Step<Option<string>>)
    ensures Extends(b, log, s) && s.result.Success?
    ensures Click(NoButton) !in s.log[|log|..]
    // no Yes button: nothing is ticked or clicked
    ensures b(|log|, WaitFor(YesButton, 5000)).Raise? ==> s.log == log + [WaitFor(YesButton, 5000)]
    // a visible Yes button: "don't show again" is ticked if it appears, then Yes is clicked
    ensures b(|log|, WaitFor(YesButton, 5000)).Ok? ==>
              s.log == log + [WaitFor(YesButton, 5000)] + YesPathCalls(b, |log| + 1)
  {
    var w := WaitForSelector(b, log, YesButton, 5000);
    if w.result.Failure? then Step(w.log, Success(None))
    else
      var c := TickAndClickYes(b, w.log);
      YesPathNeverClicksNo(b, |log| + 1);
      assert c.log[|log|..] == [WaitFor(YesButton, 5000)] + YesPathCalls(b, |log| + 1);
      Step(c.log, Success(None))
  }

  /** `click_stay_signed_in_no`: clicks No and lets errors propagate. */
  function ClickStaySignedInNo(b: Browser, log: seq<Call>): (s: Step<Option<string>>)
    ensures Extends(b, log, s)
    ensures Click(YesButton) !in s.log[|log|..]
    ensures s.log == log + [Click(NoButton)] || s.log == log + [Click(NoButton), LoadState("networkidle")]
    ensures b(|log|, Click(NoButton)).Raise? ==>
              s.log == log + [Click(NoButton)] && s.result == Failure(b(|log|, Click(NoButton)).exc)
    ensures s.result.Success? <==>
              s.log == log + [Click(NoButton), LoadState("networkidle")]
              && b(|log|, Click(NoButton)).Ok? && b(|log| + 1, LoadState("networkidle")).Ok?
    ensures s.result.Success? ==> s.result.value.None?
  {
    ClickAndWait(b, log, NoButton)
  }

  /** `get_dashboard_heading_text`: waits for a heading, then reads the
      text of the first one (which may be `None`). */
  function DashboardHeadingText(b: Browser, log: seq<Call>): (s: Step<Option<string>>)
    ensures Extends(b, log, s)
    // the heading is read only once the wait went through
    ensures s.log == log + [WaitFor(DashboardHeading, 15000)]
            || s.log == log + [WaitFor(DashboardHeading, 15000), TextContent(DashboardHeading)]
    ensures s.result.Success? ==>
              s.log == log + [WaitFor(DashboardHeading, 15000), TextContent(DashboardHeading)]
              && b(|log| + 1, TextContent(DashboardHeading)) == Ok(s.result.value)
    ensures s.result.Success? <==>
              b(|log|, WaitFor(DashboardHeading, 15000)).Ok? && b(|log| + 1, TextContent(DashboardHeading)).Ok?
  {
    var w := WaitForSelector(b, log, DashboardHeading, 15000);
    if w.result.Failure? then w else Exec(b, w.log, TextContent(DashboardHeading))
  }

  /** The exception Python raises when `.lower()` is applied to `None`. */
  const NoneHasNoLower: Exc := OtherExc("'NoneType' object has no attribute 'lower'")

  /** `verify_dashboard_heading`: whether the expected text occurs in the
      heading, ignoring case. */
  function VerifyDashboardHeading(b: Browser, log: seq<Call>, expected: string): (s: Step<bool>)
    ensures Extends(b, log, s)
            || (s.result == Failure(NoneHasNoLower) && s.log == DashboardHeadingText(b, log).log)
    // an error waiting for or reading the heading propagates
    ensures var h := DashboardHeadingText(b, log);
            h.result.Failure? ==> s == Step(h.log, Failure(h.result.error))
    ensures var h := DashboardHeadingText(b, log);
            h.result.Success? && h.result.value.Some? ==>
              s.log == h.log &&
              s.result == Success(exists i :: OccursAt(Lower(expected), Lower(h.result.value.value), i))
    ensures var h := DashboardHeadingText(b, log);
            h.result == Success(None) ==> s == Step(h.log, Failure(NoneHasNoLower))
  {
    var h := DashboardHeadingText(b, log);
    match h.result
    case Failure(e) => Step(h.log, Failure(e))
    case Success(None) => Step(h.log, Failure(NoneHasNoLower))
    case Success(Some(heading)) => Step(h.log, Success(HeadingMatches(heading, expected)))
  }

  /** The heading test itself: `expected.lower() in heading.lower()`. */
  function HeadingMatches(heading: string, expected: string): (r: bool)
    ensures r <==> exists i :: OccursAt(Lower(expected), Lower(heading), i)
  {
    Contains(Lower(expected), Lower(heading))
  }

  lemma {:induction false} LowerIdempotent(s: string)
    ensures Lower(Lower(s)) == Lower(s)
  {
    assert forall i :: 0 <= i < |s| ==> LowerChar(LowerChar(s[i])) == LowerChar(s[i]);
  }

  /** The heading match ignores case on both sides: lower-casing either
      argument first changes nothing. */
  lemma HeadingMatchIgnoresCase(heading: string, expected: string)
    ensures HeadingMatches(Lower(heading), expected) == HeadingMatches(heading, expected)
    ensures HeadingMatches(heading, Lower(expected)) == HeadingMatches(heading, expected)
  {
    LowerIdempotent(heading);
    LowerIdempotent(expected);
  }

  /** `get_error_message`: the text of the first error element, or `None`
      when waiting or reading raises anything. It never raises. */
  function GetErrorMessage(b: Browser, log: seq<Call>): (s: Step<Option<string>>)
    ensures Extends(b, log, s) && s.result.Success?
    ensures s.result.value.Some? ==>
              s.log == log + [WaitFor(ErrorMessage, 5000), TextContent(ErrorMessage)]
              && b(|log|, WaitFor(ErrorMessage, 5000)).Ok?
              && b(|log| + 1, TextContent(ErrorMessage)) == Ok(s.result.value)
    // a visible error element is read, and its text is the result
    ensures b(|log|, WaitFor(ErrorMessage, 5000)).Ok? && b(|log| + 1, TextContent(ErrorMessage)).Ok? ==>
              s.log == log + [WaitFor(ErrorMessage, 5000), TextContent(ErrorMessage)]
              && s.result.value == b(|log| + 1, TextContent(ErrorMessage)).text
    // no error element: `None`, with nothing read
    ensures b(|log|, WaitFor(ErrorMessage, 5000)).Raise? ==>
              s.log == log + [WaitFor(ErrorMessage, 5000)] && s.result.value.None?
    // the read raises: `None`
    ensures b(|log|, WaitFor(ErrorMessage, 5000)).Ok? && b(|log| + 1, TextContent(ErrorMessage)).Raise? ==>
              s.log == log + [WaitFor(ErrorMessage, 5000), TextContent(ErrorMessage)] && s.result.value.None?
  {
    var w := WaitForSelector(b, log, ErrorMessage, 5000);
    if w.result.Failure? then Step(w.log, Success(None))
    else
      var t := Exec(b, w.log, TextContent(ErrorMessage));
      if t.result.Failure? then Step(t.log, Success(None)) else t
  }

  /** `is_error_visible`: exactly "an error message was read". */
  function IsErrorVisible(b: Browser, log: seq<Call>): (s: Step<bool>)
    ensures Extends(b, log, s) && s.result.Success?
    ensures s.log == GetErrorMessage(b, log).log
    ensures s.result.value <==> GetErrorMessage(b, log).result.value.Some?
    ensures s.result.value <==>
              b(|log|, WaitFor(ErrorMessage, 5000)).Ok? && b(|log| + 1, TextContent(ErrorMessage)).Ok?
              && b(|log| + 1, TextContent(ErrorMessage)).text.Some?
  {
    var m := GetErrorMessage(b, log);
    Step(m.log, Success(m.result.value.Some?))
  }

  /** The steps of `complete_full_login`, one per call it makes. */
  datatype LoginStep =
    | MicrosoftSignIn | EnterEmailStep | ClickNext | EnterPasswordStep | ClickSignInStep
    | MfaPause | ClickVerifyStep | StaySignedInYes | StaySignedInNo | ReadHeading

  /** The fixed order of `complete_full_login`; `stay_signed_in` picks the
      Yes or the No answer to the "stay signed in" prompt. */
  function LoginPlan(staySignedIn: bool): (plan: seq<LoginStep>)
    ensures |plan| == 8 && plan[7] == ReadHeading
    ensures plan[..6] == [MicrosoftSignIn, EnterEmailStep, ClickNext, EnterPasswordStep, ClickSignInStep, MfaPause]
    ensures StaySignedInYes in plan <==> staySignedIn
    ensures StaySignedInNo in plan <==> !staySignedIn
    ensures ClickVerifyStep !in plan
  {
    [MicrosoftSignIn, EnterEmailStep, ClickNext, EnterPasswordStep, ClickSignInStep, MfaPause,
     if staySignedIn then StaySignedInYes else StaySignedInNo, ReadHeading]
  }

  /** Runs one step of the login. */
  function RunStep(b: Browser, log: seq<Call>, step: LoginStep, email: string, password: string): (s: Step<Option<string>>)
    ensures Extends(b, log, s)
  {
    match step
    case MicrosoftSignIn => ClickAndWait(b, log, SignInWithMicrosoftButton)
    case EnterEmailStep => EnterEmail(b, log, email)
    case ClickNext => ClickAndWait(b, log, NextButton)
    case EnterPasswordStep => EnterPassword(b, log, password)
    case ClickSignInStep => ClickSignIn(b, log)
    case MfaPause => ManualEnterMfaCode(b, log)
    case ClickVerifyStep => ClickVerify(b, log)
    case StaySignedInYes => ClickStaySignedInYes(b, log)
    case StaySignedInNo => ClickStaySignedInNo(b, log)
    case ReadHeading => DashboardHeadingText(b, log)
  }

  /** The log ends by waiting for the dashboard heading and reading it,
      both successfully. */
  predicate ReadHeadingLast(b: Browser, log: seq<Call>) {
    && |log| >= 2
    && log[|log| - 2] == WaitFor(DashboardHeading, 15000)
    && log[|log| - 1] == TextContent(DashboardHeading)
    && b(|log| - 2, WaitFor(DashboardHeading, 15000)).Ok?
    && b(|log| - 1, TextContent(DashboardHeading)).Ok?
  }

  /** Runs the steps in order; the first step that raises ends the run
      with its error. */
  function RunPlan(b: Browser, log: seq<Call>, plan: seq<LoginStep>, email: string, password: string): (s: Step<Option<string>>)
    ensures Extends(b, log, s)
    ensures |plan| == 0 ==> s == Step(log, Success(None))
    ensures |plan| > 0 && RunStep(b, log, plan[0], email, password).result.Failure? ==>
              s == RunStep(b, log, plan[0], email, password)
    // after a step that succeeds, the run goes on with the remaining steps
    ensures |plan| > 0 && RunStep(b, log, plan[0], email, password).result.Success? ==>
              s == RunPlan(b, RunStep(b, log, plan[0], email, password).log, plan[1..], email, password)
    ensures s.result.Success? ==> s.result.value.None?
    decreases |plan|
  {
    if |plan| == 0 then Step(log, Success(None))
    else
      var first := RunStep(b, log, plan[0], email, password);
      if first.result.Failure? then first
      else
        var rest := RunPlan(b, first.log, plan[1..], email, password);
        ExtendsTrans(b, log, first, rest);
        rest
  }

  /** The heading step, when it succeeds, ends with the wait and the read. */
  lemma HeadingStepReadsLast(b: Browser, log: seq<Call>, email: string, password: string)
    ensures var s := RunStep(b, log, ReadHeading, email, password);
            s.result.Success? ==> ReadHeadingLast(b, s.log)
  {
  }

  /** Running two plans one after the other is running their
      concatenation: the second starts where the first left off, and does
      not run at all when the first failed. */
  lemma {:induction false} RunPlanAppend(b: Browser, log: seq<Call>, p: seq<LoginStep>, q: seq<LoginStep>,
                                         email: string, password: string)
    ensures var first := RunPlan(b, log, p, email, password);
            RunPlan(b, log, p + q, email, password)
            == if first.result.Failure? then first else RunPlan(b, first.log, q, email, password)
    decreases |p|
  {
    if |p| == 0 {
      assert p + q == q;
    } else {
      assert (p + q)[0] == p[0] && (p + q)[1..] == p[1..] + q;
      var step := RunStep(b, log, p[0], email, password);
      if step.result.Success? {
        RunPlanAppend(b, step.log, p[1..], q, email, password);
      }
    }
  }

  /** A run whose last step reads the heading, and that succeeds, ends with
      that successful wait and read. */
  lemma {:induction false} RunPlanEndsWithHeadingRead(b: Browser, log: seq<Call>, plan: seq<LoginStep>,
                                                      email: string, password: string)
    requires |plan| > 0 && plan[|plan| - 1] == ReadHeading
    ensures var s := RunPlan(b, log, plan, email, password);
            s.result.Success? ==> ReadHeadingLast(b, s.log)
    decreases |plan|
  {
    if |plan| == 1 {
      assert plan == [ReadHeading];
      HeadingOnlyRunReadsLast(b, log, email, password);
    } else {
      var first := RunStep(b, log, plan[0], email, password);
      if first.result.Success? {
        RunPlanAfterSuccess(b, log, plan, email, password);
        assert plan[1..][|plan[1..]| - 1] == ReadHeading;
        RunPlanEndsWithHeadingRead(b, first.log, plan[1..], email, password);
      }
    }
  }

  /** The one-step plan that only reads the heading. */
  lemma HeadingOnlyRunReadsLast(b: Browser, log: seq<Call>, email: string, password: string)
    ensures var s := RunPlan(b, log, [ReadHeading], email, password);
            s.result.Success? ==> ReadHeadingLast(b, s.log)
  {
    HeadingStepReadsLast(b, log, email, password);
    assert [ReadHeading][1..] == [];
  }

  /** `complete_full_login`: the steps of `LoginPlan` in order; the first
      error ends the login. */
  function CompleteFullLogin(b: Browser, log: seq<Call>, email: string, password: string,
                             staySignedIn: bool): (s: Step<Option<string>>)
    ensures Extends(b, log, s)
    // the first click's error ends the login at once
    ensures b(|log|, Click(SignInWithMicrosoftButton)).Raise? ==>
              s.log == log + [Click(SignInWithMicrosoftButton)] && s.result.Failure?
    // a login that completes has just read the dashboard heading, and
    // returns nothing
    ensures s.result.Success? ==> ReadHeadingLast(b, s.log) && s.result.value.None?
  {
    RunPlanEndsWithHeadingRead(b, log, LoginPlan(staySignedIn), email, password);
    RunPlan(b, log, LoginPlan(staySignedIn), email, password)
  }

  /** The login with the Verify click that `manual_enter_mfa_code`
      announces: `click_verify` right after the MFA pause. */
  function VerifiedLoginPlan(staySignedIn: bool): (plan: seq<LoginStep>)
    ensures |plan| == 9 && plan[5] == MfaPause && plan[6] == ClickVerifyStep
    ensures plan == LoginPlan(staySignedIn)[..6] + [ClickVerifyStep] + LoginPlan(staySignedIn)[6..]
  {
    LoginPlan(staySignedIn)[..6] + [ClickVerifyStep] + LoginPlan(staySignedIn)[6..]
  }

  /** `complete_full_login` with the Verify click after the MFA pause. */
  function CompleteFullLoginVerified(b: Browser, log: seq<Call>, email: string, password: string,
                                     staySignedIn: bool): (s: Step<Option<string>>)
    ensures Extends(b, log, s)
    ensures s.result.Success? ==> ReadHeadingLast(b, s.log) && s.result.value.None?
  {
    RunPlanEndsWithHeadingRead(b, log, VerifiedLoginPlan(staySignedIn), email, password);
    RunPlan(b, log, VerifiedLoginPlan(staySignedIn), email, password)
  }

  /** A browser on which every call succeeds. */
  ghost predicate AlwaysOk(b: Browser) {
    forall n, c :: b(n, c).Ok?
  }

  /** The calls a step makes when every call succeeds. */
  function HappyCalls(step: LoginStep, email: string, password: string): seq<Call>
  {
    match step
    case MicrosoftSignIn => [Click(SignInWithMicrosoftButton), LoadState("networkidle")]
    case EnterEmailStep => [WaitFor(EmailInput, 5000), Fill(EmailInput, email)]
    case ClickNext => [Click(NextButton), LoadState("networkidle")]
    case EnterPasswordStep => [WaitFor(PasswordInput, 5000), Fill(PasswordInput, password)]
    case ClickSignInStep => [Click(SignInButton), LoadState("networkidle"), LoadState("networkidle")]
    case MfaPause => MfaCountdown()
    case ClickVerifyStep => [Click(VerifyButton), LoadState("networkidle")]
    case StaySignedInYes =>
      [WaitFor(YesButton, 5000), WaitFor(DontShowAgainCheckbox, 5000), Check(DontShowAgainCheckbox),
       Click(YesButton), LoadState("networkidle")]
    case StaySignedInNo => [Click(NoButton), LoadState("networkidle")]
    case ReadHeading => [WaitFor(DashboardHeading, 15000), TextContent(DashboardHeading)]
  }

  /** The calls a plan makes when every call succeeds. */
  function HappyPlanCalls(plan: seq<LoginStep>, email: string, password: string): seq<Call>
  {
    if |plan| == 0 then [] else HappyCalls(plan[0], email, password) + HappyPlanCalls(plan[1..], email, password)
  }

  lemma RunStepHappy(b: Browser, log: seq<Call>, step: LoginStep, email: string, password: string)
    requires AlwaysOk(b)
    ensures var s := RunStep(b, log, step, email, password);
            s.result.Success? && s.log == log + HappyCalls(step, email, password)
  {
    match step
    case MicrosoftSignIn =>
    case EnterEmailStep =>
    case ClickNext =>
    case EnterPasswordStep =>
    case ClickSignInStep =>
    case MfaPause =>
    case ClickVerifyStep =>
    case StaySignedInYes => StaySignedInYesHappy(b, log);
    case StaySignedInNo =>
    case ReadHeading =>
  }

  lemma StaySignedInYesHappy(b: Browser, log: seq<Call>)
    requires AlwaysOk(b)
    ensures var s := ClickStaySignedInYes(b, log);
            s.log == log + [WaitFor(YesButton, 5000), WaitFor(DontShowAgainCheckbox, 5000), Check(DontShowAgainCheckbox),
                            Click(YesButton), LoadState("networkidle")]
  {
    var w := WaitForSelector(b, log, YesButton, 5000);
    assert w.result.Success?;
    var c := WaitForSelector(b, w.log, DontShowAgainCheckbox, 5000);
    assert c.result.Success?;
  }

  lemma {:induction false} RunPlanHappy(b: Browser, log: seq<Call>, plan: seq<LoginStep>, email: string, password: string)
    requires AlwaysOk(b)
    ensures var s := RunPlan(b, log, plan, email, password);
            s.result.Success? && s.log == log + HappyPlanCalls(plan, email, password)
    decreases |plan|
  {
    if |plan| > 0 {
      var first := RunStep(b, log, plan[0], email, password);
      RunStepHappy(b, log, plan[0], email, password);
      RunPlanAfterSuccess(b, log, plan, email, password);
      RunPlanHappy(b, first.log, plan[1..], email, password);
      HappyPlanCallsCons(log, plan, email, password);
    }
  }

  /** After a step that succeeds, the run goes on with the rest of the plan. */
  lemma RunPlanAfterSuccess(b: Browser, log: seq<Call>, plan: seq<LoginStep>, email: string, password: string)
    requires |plan| > 0 && RunStep(b, log, plan[0], email, password).result.Success?
    ensures RunPlan(b, log, plan, email, password)
            == RunPlan(b, RunStep(b, log, plan[0], email, password).log, plan[1..], email, password)
  {
  }

  lemma HappyPlanCallsCons(log: seq<Call>, plan: seq<LoginStep>, email: string, password: string)
    requires |plan| > 0
    ensures log + HappyCalls(plan[0], email, password) + HappyPlanCalls(plan[1..], email, password)
            == log + HappyPlanCalls(plan, email, password)
  {
    AppendAssoc(log, HappyCalls(plan[0], email, password), HappyPlanCalls(plan[1..], email, password));
  }

  lemma AppendAssoc<T>(a: seq<T>, b: seq<T>, c: seq<T>)
    ensures a + b + c == a + (b + c)
  {
  }

  /** When every call succeeds, `complete_full_login` makes exactly the
      calls of its steps in the fixed order. */
  lemma CompleteFullLoginHappyPath(b: Browser, email: string, password: string, staySignedIn: bool)
    requires AlwaysOk(b)
    ensures var s := CompleteFullLogin(b, [], email, password, staySignedIn);
            && s.result.Success?
            && s.log == HappyCalls(MicrosoftSignIn, email, password)
                      + (HappyCalls(EnterEmailStep, email, password)
                      + (HappyCalls(ClickNext, email, password)
                      + (HappyCalls(EnterPasswordStep, email, password)
                      + (HappyCalls(ClickSignInStep, email, password)
                      + (HappyCalls(MfaPause, email, password)
                      + (HappyCalls(if staySignedIn then StaySignedInYes else StaySignedInNo, email, password)
                      + HappyCalls(ReadHeading, email, password)))))))
  {
    RunPlanHappy(b, [], LoginPlan(staySignedIn), email, password);
    UnrollHappyPlan(LoginPlan(staySignedIn), email, password);
  }

  /** When every call succeeds, the login clicks Yes on the "stay signed
      in" prompt exactly when `stay_signed_in` is set, and No exactly when
      it is not. */
  lemma CompleteFullLoginAnswersPrompt(b: Browser, email: string, password: string, staySignedIn: bool)
    requires AlwaysOk(b)
    ensures var s := CompleteFullLogin(b, [], email, password, staySignedIn);
            && (Click(YesButton) in s.log <==> staySignedIn)
            && (Click(NoButton) in s.log <==> !staySignedIn)
  {
    var plan := LoginPlan(staySignedIn);
    RunPlanHappy(b, [], plan, email, password);
    HappyPlanClicks(plan, email, password);
  }

  /** The selectors the login clicks are pairwise different. */
  lemma ClickedSelectorsDistinct()
    ensures YesButton != NoButton && YesButton != NextButton && NoButton != NextButton
    ensures YesButton != SignInButton && NoButton != SignInButton
    ensures YesButton != SignInWithMicrosoftButton && NoButton != SignInWithMicrosoftButton
  {
    assert YesButton[28] == 'Y' && NoButton[28] == 'N' && NextButton[28] == 'N' && SignInButton[28] == 'S';
    assert NoButton[29] == 'o' && NextButton[29] == 'e';
    assert SignInWithMicrosoftButton[0] == 'b' && YesButton[0] == 'i' && NoButton[0] == 'i';
  }

  /** The Verify button differs from every other button the login clicks. */
  lemma VerifyButtonDistinct()
    ensures VerifyButton != YesButton && VerifyButton != NoButton && VerifyButton != NextButton
    ensures VerifyButton != SignInButton && VerifyButton != SignInWithMicrosoftButton
  {
    assert VerifyButton[28] == 'V' && YesButton[28] == 'Y' && NoButton[28] == 'N';
    assert NextButton[28] == 'N' && SignInButton[28] == 'S' && SignInWithMicrosoftButton[0] == 'b';
  }

  /** Only the Yes step clicks Yes and only the No step clicks No. */
  lemma HappyCallsClicks(step: LoginStep, email: string, password: string)
    ensures Click(YesButton) in HappyCalls(step, email, password) <==> step == StaySignedInYes
    ensures Click(NoButton) in HappyCalls(step, email, password) <==> step == StaySignedInNo
    ensures Click(VerifyButton) in HappyCalls(step, email, password) <==> step == ClickVerifyStep
  {
    ClickedSelectorsDistinct();
    VerifyButtonDistinct();
  }

  lemma {:induction false} HappyPlanClicks(plan: seq<LoginStep>, email: string, password: string)
    ensures Click(YesButton) in HappyPlanCalls(plan, email, password) <==> StaySignedInYes in plan
    ensures Click(NoButton) in HappyPlanCalls(plan, email, password) <==> StaySignedInNo in plan
    ensures Click(VerifyButton) in HappyPlanCalls(plan, email, password) <==> ClickVerifyStep in plan
    decreases |plan|
  {
    if |plan| > 0 {
      HappyCallsClicks(plan[0], email, password);
      HappyPlanClicks(plan[1..], email, password);
      assert plan == [plan[0]] + plan[1..];
    }
  }

  lemma UnrollHappyPlan(plan: seq<LoginStep>, email: string, password: string)
    requires |plan| == 8
    ensures HappyPlanCalls(plan, email, password)
            == HappyCalls(plan[0], email, password) + (HappyCalls(plan[1], email, password)
             + (HappyCalls(plan[2], email, password) + (HappyCalls(plan[3], email, password)
             + (HappyCalls(plan[4], email, password) + (HappyCalls(plan[5], email, password)
             + (HappyCalls(plan[6], email, password) + HappyCalls(plan[7], email, password)))))))
  {
    var e, p := email, password;
    assert plan[1..][1..] == plan[2..] && plan[2..][1..] == plan[3..] && plan[3..][1..] == plan[4..];
    assert plan[4..][1..] == plan[5..] && plan[5..][1..] == plan[6..] && plan[6..][1..] == plan[7..];
    assert plan[7..][1..] == [];
    assert HappyPlanCalls(plan[7..], e, p) == HappyCalls(plan[7], e, p) + [];
    assert HappyCalls(plan[7], e, p) + [] == HappyCalls(plan[7], e, p);
    assert HappyPlanCalls(plan[6..], e, p) == HappyCalls(plan[6], e, p) + HappyPlanCalls(plan[7..], e, p);
    assert HappyPlanCalls(plan[5..], e, p) == HappyCalls(plan[5], e, p) + HappyPlanCalls(plan[6..], e, p);
    assert HappyPlanCalls(plan[4..], e, p) == HappyCalls(plan[4], e, p) + HappyPlanCalls(plan[5..], e, p);
    assert HappyPlanCalls(plan[3..], e, p) == HappyCalls(plan[3], e, p) + HappyPlanCalls(plan[4..], e, p);
    assert HappyPlanCalls(plan[2..], e, p) == HappyCalls(plan[2], e, p) + HappyPlanCalls(plan[3..], e, p);
    assert HappyPlanCalls(plan[1..], e, p) == HappyCalls(plan[1], e, p) + HappyPlanCalls(plan[2..], e, p);
  }

  /** The calls of two plans run one after the other. */
  lemma {:induction false} HappyPlanCallsAppend(p: seq<LoginStep>, q: seq<LoginStep>, email: string, password: string)
    ensures HappyPlanCalls(p + q, email, password) == HappyPlanCalls(p, email, password) + HappyPlanCalls(q, email, password)
    decreases |p|
  {
    if |p| > 0 {
      assert (p + q)[0] == p[0] && (p + q)[1..] == p[1..] + q;
      HappyPlanCallsAppend(p[1..], q, email, password);
      AppendAssoc(HappyCalls(p[0], email, password), HappyPlanCalls(p[1..], email, password),
                  HappyPlanCalls(q, email, password));
    } else {
      assert p + q == q;
    }
  }

  /** As written, a login on which every call succeeds never clicks Verify,
      although `manual_enter_mfa_code` announces that the script will. */
  lemma HappyLoginNeverClicksVerify(b: Browser, email: string, password: string, staySignedIn: bool)
    requires AlwaysOk(b)
    ensures var s := CompleteFullLogin(b, [], email, password, staySignedIn);
            s.result.Success? && Click(VerifyButton) !in s.log
  {
    var plan := LoginPlan(staySignedIn);
    assert ClickVerifyStep !in plan;
    RunPlanHappy(b, [], plan, email, password);
    HappyPlanClicks(plan, email, password);
  }

  /** The login's calls split at the MFA pause. */
  lemma LoginPlanCallsSplit(staySignedIn: bool, email: string, password: string)
    ensures HappyPlanCalls(LoginPlan(staySignedIn), email, password)
            == HappyPlanCalls(LoginPlan(staySignedIn)[..6], email, password)
               + HappyPlanCalls(LoginPlan(staySignedIn)[6..], email, password)
  {
    var plan := LoginPlan(staySignedIn);
    assert plan == plan[..6] + plan[6..];
    HappyPlanCallsAppend(plan[..6], plan[6..], email, password);
  }

  /** The corrected login's calls: the Verify click sits between the two
      halves of the login as written. */
  lemma VerifiedPlanCallsSplit(staySignedIn: bool, email: string, password: string)
    ensures HappyPlanCalls(VerifiedLoginPlan(staySignedIn), email, password)
            == HappyPlanCalls(LoginPlan(staySignedIn)[..6], email, password)
               + [Click(VerifyButton), LoadState("networkidle")]
               + HappyPlanCalls(LoginPlan(staySignedIn)[6..], email, password)
  {
    var head, tail := LoginPlan(staySignedIn)[..6], LoginPlan(staySignedIn)[6..];
    HappyPlanCallsAppend(head + [ClickVerifyStep], tail, email, password);
    HappyPlanCallsAppend(head, [ClickVerifyStep], email, password);
    assert [ClickVerifyStep][1..] == [];
    assert HappyPlanCalls([ClickVerifyStep], email, password) == [Click(VerifyButton), LoadState("networkidle")] + [];
  }

  /** The corrected login is the login as written with exactly one Verify
      click, and its network wait, inserted right after the MFA pause. */
  lemma VerifiedLoginClicksVerifyAfterPause(b: Browser, email: string, password: string, staySignedIn: bool)
    requires AlwaysOk(b)
    ensures var before := HappyPlanCalls(LoginPlan(staySignedIn)[..6], email, password);
            var after := HappyPlanCalls(LoginPlan(staySignedIn)[6..], email, password);
            && CompleteFullLogin(b, [], email, password, staySignedIn).log == before + after
            && CompleteFullLoginVerified(b, [], email, password, staySignedIn).result.Success?
            && CompleteFullLoginVerified(b, [], email, password, staySignedIn).log
               == before + [Click(VerifyButton), LoadState("networkidle")] + after
  {
    RunPlanHappy(b, [], LoginPlan(staySignedIn), email, password);
    RunPlanHappy(b, [], VerifiedLoginPlan(staySignedIn), email, password);
    LoginPlanCallsSplit(staySignedIn, email, password);
    VerifiedPlanCallsSplit(staySignedIn, email, password);
  }
}

=== FILE: overview_page.dfy ===
/** The IT Asset Inventory Overview page object
    (pages/it_assert_inventory/overview_page.py): its locator table, the
    section and metric-card lookups, and the two verdicts it reports on the
    metric values and the Security Posture cards. */
module OverviewPage {
  import opened Wrappers
  import opened Text
  import opened BasePage

  /** `overview_url`. */
  function OverviewUrl(baseUrl: string): (r: string)
    ensures |r| == |baseUrl| + |OverviewPath|
    ensures r[..|baseUrl|] == baseUrl && r[|baseUrl|..] == OverviewPath
  {
    baseUrl + OverviewPath
  }

  const OverviewPath: string := "/it-asset-inventory/overview"

  /** The page's locator table, by key. */
  const Locators: map<string, string> := map[
    "page_heading" := "h1:has-text(\"Overview\"), [data-testid=\"overview-heading\"]",
    "security_posture_section" :=
      "[data-testid=\"security-posture-section\"], section:has-text(\"Security Posture Overview\")",
    "security_posture_title" :=
      "h2:has-text(\"Security Posture Overview\"), h3:has-text(\"Security Posture Overview\")",
    "metric_cards" := "[data-testid*=\"metric-card\"], .metric-card, [class*=\"metric-card\"]",
    "metric_card_title" := "[data-testid=\"metric-title\"], .metric-title, [class*=\"metric-title\"]",
    "metric_card_value" := "[data-testid=\"metric-value\"], .metric-value, [class*=\"metric-value\"]",
    "critical_assets" := ":text(\"Critical Assets\")",
    "non_compliant_assets" := ":text(\"Non-Compliant Assets\")",
    "inactive_devices" := ":text(\"Inactive Devices\")",
    "compliance_coverage" := ":text(\"Compliance Coverage\")",
    "endpoint_devices_section" :=
      "[data-testid=\"endpoint-devices-section\"], section:has-text(\"Endpoint Devices\")",
    "endpoint_devices_title" := "h2:has-text(\"Endpoint Devices\"), h3:has-text(\"Endpoint Devices\")",
    "pie_chart" := "[data-testid=\"pie-chart\"], .pie-chart, canvas, svg[class*=\"chart\"]",
    "devices_by_criticality" := ":text(\"Devices by Criticality\")",
    "total_devices_count" := "[data-testid=\"total-devices\"], .total-devices",
    "view_more_link" := "a:has-text(\"View More\"), button:has-text(\"View More\")",
    "criticality_critical" := ":text(\"Critical\")",
    "criticality_high" := ":text(\"High\")",
    "criticality_medium" := ":text(\"Medium\")",
    "criticality_low" := ":text(\"Low\")"
  ]

  /** `_get_locator`: the table's selector for `key`, or the empty string
      for a key the table does not hold. */
  function GetLocator(key: string): (r: string)
    ensures key in Locators ==> r == Locators[key]
    ensures key !in Locators ==> r == ""
  {
    if key in Locators then Locators[key] else ""
  }

  /** Every selector in the table is non-empty. */
  lemma LocatorsNonEmpty()
    ensures forall k :: k in Locators ==> |Locators[k]| > 0
  {
    forall k | k in Locators
      ensures |Locators[k]| > 0
    {
      assert Locators[k] != "";
    }
  }

  /** So the empty string from `_get_locator` means exactly "unknown key". */
  lemma GetLocatorEmptyIffUnknown(key: string)
    ensures GetLocator(key) == "" <==> key !in Locators
  {
    LocatorsNonEmpty();
  }

  /** The selector `locate_section` waits on: `:text("<name>")`. */
  function SectionSelector(name: string): (r: string)
    ensures |r| == |name| + 9
    ensures r[..7] == ":text(\"" && r[7..7 + |name|] == name && r[7 + |name|..] == "\")"
  {
    ":text(\"" + name + "\")"
  }

  /** `locate_section`: waits up to 10 s for the section's text; the
      section's locator (written here as its selector) when the wait
      succeeds, `None` instead of any exception when it does not. */
  function LocateSection(b: Browser, log: seq<Call>, name: string): (s: Step<Option<string>>)
    ensures Extends(b, log, s) && s.result.Success?
    ensures s.log == log + [WaitFor(SectionSelector(name), 10000)]
    ensures s.result.value.Some? <==> b(|log|, WaitFor(SectionSelector(name), 10000)).Ok?
    ensures s.result.value.Some? ==> s.result.value.value == SectionSelector(name)
  {
    var w := WaitForSelector(b, log, SectionSelector(name), 10000);
    if w.result.Failure? then Step(w.log, Success(None))
    else Step(w.log, Success(Some(SectionSelector(name))))
  }

  /** `count_metric_cards`: waits up to 10 s for the metric-card selector and
      counts the cards on the page; any exception from the wait gives 0.
      `cardsOnPage` is what `page.locator(...).all()` finds. */
  function CountMetricCards<C>(b: Browser, log: seq<Call>, cardsOnPage: seq<C>): (s: Step<nat>)
    ensures Extends(b, log, s) && s.result.Success?
    ensures s.log == log + [WaitFor(GetLocator("metric_cards"), 10000)]
    ensures b(|log|, WaitFor(GetLocator("metric_cards"), 10000)).Ok? ==> s.result.value == |cardsOnPage|
    ensures b(|log|, WaitFor(GetLocator("metric_cards"), 10000)).Raise? ==> s.result.value == 0
  {
    var w := WaitForSelector(b, log, GetLocator("metric_cards"), 10000);
    if w.result.Failure? then Step(w.log, Success(0))
    else Step(w.log, Success(|cardsOnPage|))
  }

  /** `is_value_numeric_and_formatted`: `re.search(r"\d", text)`, scanning
      left to right for an ASCII digit. */
  function IsValueNumeric(text: string): (r: bool)
    ensures r <==> exists i :: 0 <= i < |text| && IsDigit(text[i])
  {
    if |text| == 0 then false
    else if IsDigit(text[0]) then true
    else
      var rest := IsValueNumeric(text[1..]);
      assert (exists i :: 0 <= i < |text| && IsDigit(text[i])) ==>
             (exists i :: 0 <= i < |text[1..]| && IsDigit(text[1..][i])) by {
        if exists i :: 0 <= i < |text| && IsDigit(text[i]) {
          var i :| 0 <= i < |text| && IsDigit(text[i]);
          assert text[1..][i - 1] == text[i];
        }
      }
      rest
  }

  /** Stripping whitespace never changes whether a value has a digit. */
  lemma StripKeepsDigits(text: string)
    ensures IsValueNumeric(Strip(text)) == IsValueNumeric(text)
  {
    var a := LeadingSpaces(text);
    var r := Strip(text);
    if IsValueNumeric(text) {
      var i :| 0 <= i < |text| && IsDigit(text[i]);
      assert !IsSpace(text[i]);
      assert a <= i < a + |r|;
      assert r[i - a] == text[i];
    }
  }

  /** What reading one metric value's text gives: its text content (which
      Playwright may report as `None`), or the message of the exception the
      read raised. */
  datatype ValueRead = Read(text: Option<string>) | ReadFails(message: string)

  /** A value that passes the check: text whose stripped form has a digit. */
  predicate GoodValue(v: ValueRead) {
    v.Read? && v.text.Some? && IsValueNumeric(Strip(v.text.value))
  }

  const NoMetricValues: string := "No metric values found on the page"
  const AllMetricValuesOk: string := "All metric values are numeric and properly formatted"
  const NoneHasNoStrip: string := "'NoneType' object has no attribute 'strip'"

  /** The message wrapping any exception the check catches. */
  function ErrorVerifying(message: string): string {
    "Error verifying metric values: " + message
  }

  /** The message naming a value without a digit. */
  function BadValueMessage(value: string): string {
    "Metric value '" + value + "' is not properly formatted or numeric"
  }

  /** The verdict the check gives at the first value that does not pass. */
  function BadVerdict(v: ValueRead): (bool, string)
  {
    match v
    case ReadFails(m) => (false, ErrorVerifying(m))
    case Read(None) => (false, ErrorVerifying(NoneHasNoStrip))
    case Read(Some(t)) => (false, BadValueMessage(Strip(t)))
  }

  /** The loop of `verify_all_metric_values_numeric`, in page order. */
  function ScanValues(values: seq<ValueRead>): (r: (bool, string))
    ensures r.0 <==> forall i :: 0 <= i < |values| ==> GoodValue(values[i])
    ensures r.0 ==> r.1 == AllMetricValuesOk
    ensures forall k :: 0 <= k < |values| && !GoodValue(values[k])
                        && (forall j :: 0 <= j < k ==> GoodValue(values[j])) ==>
              r == BadVerdict(values[k])
  {
    if |values| == 0 then (true, AllMetricValuesOk)
    else if !GoodValue(values[0]) then BadVerdict(values[0])
    else
      var r := ScanValues(values[1..]);
      assert forall i :: 1 <= i < |values| ==> values[1..][i - 1] == values[i];
      r
  }

  /** `verify_all_metric_values_numeric`. `lookup` is what
      `get_all_metric_values` returns: the value elements on the page, or
      the message of an exception it raised. */
  function VerifyAllMetricValuesNumeric(lookup: Result<seq<ValueRead>, string>): (r: (bool, string))
    ensures lookup.Failure? ==> r == (false, ErrorVerifying(lookup.error))
    ensures lookup.Success? && |lookup.value| == 0 ==> r == (false, NoMetricValues)
    ensures r.0 <==> lookup.Success? && |lookup.value| > 0
                     && forall i :: 0 <= i < |lookup.value| ==> GoodValue(lookup.value[i])
    // a non-empty list gets the scan's verdict: the first bad value's message
    ensures lookup.Success? && |lookup.value| > 0 ==> r == ScanValues(lookup.value)
    ensures lookup.Success? && |lookup.value| > 0 ==>
              forall k :: 0 <= k < |lookup.value| && !GoodValue(lookup.value[k])
                          && (forall j :: 0 <= j < k ==> GoodValue(lookup.value[j])) ==>
                r == BadVerdict(lookup.value[k])
    ensures r.0 ==> r.1 == AllMetricValuesOk
  {
    match lookup
    case Failure(m) => (false, ErrorVerifying(m))
    case Success(values) => if |values| == 0 then (false, NoMetricValues) else ScanValues(values)
  }

  /** The check stops at the first value that fails: nothing after it is
      inspected, so whatever follows cannot change the verdict. */
  lemma {:induction false} ScanStopsAtFirstFailure(good: seq<ValueRead>, bad: ValueRead, rest: seq<ValueRead>)
    requires forall i :: 0 <= i < |good| ==> GoodValue(good[i])
    requires !GoodValue(bad)
    ensures ScanValues(good + [bad] + rest) == BadVerdict(bad)
  {
    if |good| == 0 {
      assert (good + [bad] + rest)[0] == bad;
    } else {
      assert (good + [bad] + rest)[1..] == good[1..] + [bad] + rest;
      ScanStopsAtFirstFailure(good[1..], bad, rest);
    }
  }

  /** The Security Posture cards, in the order the check lists them. */
  const SecurityPostureCards: seq<string> :=
    ["Critical Assets", "Non-Compliant Assets", "Inactive Devices", "Compliance Coverage"]

  /** The cards of `names` that are not visible, in the order of `names`. */
  function MissingCards(names: seq<string>, visible: string -> bool): (r: seq<string>)
    ensures |r| <= |names|
    ensures forall n :: n in r <==> n in names && !visible(n)
  {
    if |names| == 0 then []
    else (if visible(names[0]) then [] else [names[0]]) + MissingCards(names[1..], visible)
  }

  /** The missing cards keep the order of the card list: the filter
      distributes over concatenation. */
  lemma {:induction false} MissingCardsAppend(a: seq<string>, c: seq<string>, visible: string -> bool)
    ensures MissingCards(a + c, visible) == MissingCards(a, visible) + MissingCards(c, visible)
  {
    if |a| == 0 {
      assert a + c == c;
    } else {
      assert (a + c)[1..] == a[1..] + c;
      MissingCardsAppend(a[1..], c, visible);
    }
  }

  const AllCardsVisible: string := "All Security Posture cards are visible"

  /** `verify_all_security_posture_cards_visible`. `visible` is
      `is_metric_card_visible`, which never raises. */
  function VerifyAllSecurityPostureCards(visible: string -> bool): (r: (bool, string))
    ensures r.0 <==> forall i :: 0 <= i < |SecurityPostureCards| ==> visible(SecurityPostureCards[i])
    ensures r.0 ==> r.1 == AllCardsVisible
    ensures !r.0 ==> r.1 == "Missing cards: " + Join(MissingCards(SecurityPostureCards, visible), ", ")
  {
    var missing := MissingCards(SecurityPostureCards, visible);
    NoneMissingIffAllVisible(SecurityPostureCards, visible);
    if |missing| > 0 then (false, "Missing cards: " + Join(missing, ", "))
    else (true, AllCardsVisible)
  }

  /** Nothing is missing exactly when every card is visible. */
  lemma NoneMissingIffAllVisible(names: seq<string>, visible: string -> bool)
    ensures |MissingCards(names, visible)| == 0 <==> forall i :: 0 <= i < |names| ==> visible(names[i])
  {
    var missing := MissingCards(names, visible);
    if |missing| > 0 {
      assert missing[0] in names && !visible(missing[0]);
    } else {
      assert forall i :: 0 <= i < |names| ==> names[i] !in missing;
    }
  }

  /** With no card visible, the message lists the four names in their
      fixed order. */
  lemma NoCardVisibleMessage(visible: string -> bool)
    requires forall i :: 0 <= i < |SecurityPostureCards| ==> !visible(SecurityPostureCards[i])
    ensures VerifyAllSecurityPostureCards(visible)
            == (false, "Missing cards: " + ("Critical Assets" + ", " + "Non-Compliant Assets" + ", "
                                            + "Inactive Devices" + ", " + "Compliance Coverage"))
  {
    NoneVisibleMissesAll(visible);
    JoinCardNames();
    var r := VerifyAllSecurityPostureCards(visible);
    assert !r.0;
    assert r.1 == "Missing cards: " + Join(SecurityPostureCards, ", ");
  }

  lemma NoneVisibleMissesAll(visible: string -> bool)
    requires forall i :: 0 <= i < |SecurityPostureCards| ==> !visible(SecurityPostureCards[i])
    ensures MissingCards(SecurityPostureCards, visible) == SecurityPostureCards
  {
    var cards := SecurityPostureCards;
    assert !visible(cards[0]) && !visible(cards[1]) && !visible(cards[2]) && !visible(cards[3]);
    assert MissingCards(cards[3..], visible) == cards[3..];
    assert MissingCards(cards[2..], visible) == cards[2..];
    assert MissingCards(cards[1..], visible) == cards[1..];
  }

  lemma JoinCardNames()
    ensures Join(SecurityPostureCards, ", ")
            == "Critical Assets" + ", " + "Non-Compliant Assets" + ", " + "Inactive Devices" + ", " + "Compliance Coverage"
  {
    var cards := SecurityPostureCards;
    assert cards[1..][1..] == cards[2..];
    assert cards[2..][1..] == cards[3..];
    assert Join(cards[3..], ", ") == "Compliance Coverage";
    assert Join(cards[2..], ", ") == "Inactive Devices" + ", " + "Compliance Coverage";
    assert Join(cards[1..], ", ") == "Non-Compliant Assets" + ", " + ("Inactive Devices" + ", " + "Compliance Coverage");
    assert Join(cards, ", ")
        == "Critical Assets" + ", " + ("Non-Compliant Assets" + ", " + ("Inactive Devices" + ", " + "Compliance Coverage"));
  }
}

=== FILE: settings.dfy ===
/** Configuration read from the environment (config/settings.py).

    The process environment, after the `.env` file has been loaded into it,
    is a map from variable names to values. The module-level constants of
    the source become the fields of `Config`, computed once by `Load`. */
module Settings {
  import opened Wrappers
  import opened Text

  type Env = map<string, string>

  /** `os.getenv(key)`. */
  function GetEnv(env: Env, key: string): Option<string>
  {
    if key in env then Some(env[key]) else None
  }

  /** `os.getenv(key, default)`. */
  function GetEnvOr(env: Env, key: string, default: string): string
  {
    GetEnv(env, key).GetOr(default)
  }

  /** Equal up to the case of ASCII letters. */
  predicate EqualsIgnoringCase(a: string, b: string) {
    |a| == |b| && forall i :: 0 <= i < |a| ==> LowerChar(a[i]) == LowerChar(b[i])
  }

  /** `get_bool_env(key, default)`: the value, or the default when the
      variable is unset, compared with `"true"` after lower-casing. */
  function GetBoolEnv(env: Env, key: string, default: string): (b: bool)
    ensures b <==> EqualsIgnoringCase(GetEnvOr(env, key, default), "true")
    ensures key !in env ==> (b <==> EqualsIgnoringCase(default, "true"))
  {
    var v := Lower(GetEnvOr(env, key, default));
    assert v == "true" <==> EqualsIgnoringCase(GetEnvOr(env, key, default), "true") by {
      if EqualsIgnoringCase(GetEnvOr(env, key, default), "true") {
        assert forall i :: 0 <= i < 4 ==> v[i] == "true"[i];
      }
    }
    v == "true"
  }

  /** `get_bool_env` with its default default, `"false"`: an unset variable
      reads as false, and any capitalisation of `true` reads as true. */
  lemma GetBoolEnvDefaultFalse(env: Env, key: string)
    ensures key !in env ==> !GetBoolEnv(env, key, "false")
    ensures key in env && env[key] == "TRUE" ==> GetBoolEnv(env, key, "false")
    ensures key in env && env[key] == "True" ==> GetBoolEnv(env, key, "false")
    ensures key in env && env[key] == "1" ==> !GetBoolEnv(env, key, "false")
  {
    if key in env && env[key] == "TRUE" {
      assert LowerChar('T') == 't' && LowerChar('R') == 'r' && LowerChar('U') == 'u' && LowerChar('E') == 'e';
    }
    if key in env && env[key] == "True" {
      assert LowerChar('T') == 't';
    }
  }

  /** Python truthiness of an optional string: set and non-empty. */
  predicate IsSet(v: Option<string>) {
    v.Some? && v.value != ""
  }

  /** The settings the core reads, as loaded at import time. */
  datatype Config = Config(
    portalBaseUrl: string,
    browser: string,
    headless: bool,
    debug: bool,
    trace: bool,
    screenshotOnFailure: bool,
    screenshotDir: string,
    videoOnFailure: bool,
    videoDir: string,
    testEmail: Option<string>,
    testPassword: Option<string>,
    testMfaCode: Option<string>,
    keycloakBaseUrl: string,
    keycloakRealm: string,
    tokenEndpoint: string,
    clientId: Option<string>,
    clientSecret: Option<string>,
    username: Option<string>,
    password: Option<string>,
    grantType: string,
    invalidUsername: string,
    invalidPassword: string)

  const DefaultPortalBaseUrl: string := "https://dev-aisoc-fe.qualgo.dev"
  const DefaultKeycloakBaseUrl: string := "https://nonprod-common-keycloak.qualgo.dev"
  const DefaultRealm: string := "dev-ai-soc"
  const DefaultInvalidUsername: string := "invalid@qualgo.net"
  const DefaultInvalidPassword: string := "WrongPassword123@"

  /** `KEYCLOAK_TOKEN_ENDPOINT`: the realm's OpenID Connect token URL. */
  function TokenEndpoint(baseUrl: string, realm: string): (r: string)
    ensures |r| == |baseUrl| + 8 + |realm| + 30
    ensures r[..|baseUrl|] == baseUrl
    ensures r[|baseUrl|..|baseUrl| + 8] == "/realms/"
    ensures r[|baseUrl| + 8..|baseUrl| + 8 + |realm|] == realm
    ensures r[|baseUrl| + 8 + |realm|..] == "/protocol/openid-connect/token"
  {
    baseUrl + "/realms/" + realm + "/protocol/openid-connect/token"
  }

  /** A setting read with no default: absent exactly when the variable is
      unset, and otherwise the variable's value. */
  predicate ReadWithoutDefault(env: Env, key: string, v: Option<string>) {
    (v.None? <==> key !in env) && (key in env ==> v.value == env[key])
  }

  /** A setting read with a default: the variable's value when it is set,
      the default otherwise. */
  predicate ReadWithDefault(env: Env, key: string, default: string, v: string) {
    (key in env ==> v == env[key]) && (key !in env ==> v == default)
  }

  /** Reads every setting of the core from the environment. */
  function Load(env: Env): (c: Config)
    // the credentials have no defaults
    ensures ReadWithoutDefault(env, "TEST_EMAIL", c.testEmail)
    ensures ReadWithoutDefault(env, "TEST_PASSWORD", c.testPassword)
    ensures ReadWithoutDefault(env, "TEST_MFA_CODE", c.testMfaCode)
    ensures ReadWithoutDefault(env, "KEYCLOAK_CLIENT_ID", c.clientId)
    ensures ReadWithoutDefault(env, "KEYCLOAK_CLIENT_SECRET", c.clientSecret)
    ensures ReadWithoutDefault(env, "KEYCLOAK_USERNAME", c.username)
    ensures ReadWithoutDefault(env, "KEYCLOAK_PASSWORD", c.password)
    // the other strings fall back to their defaults
    ensures ReadWithDefault(env, "PORTAL_BASE_URL", GetEnvOr(env, "BASE_URL", DefaultPortalBaseUrl), c.portalBaseUrl)
    ensures ReadWithDefault(env, "BROWSER", "chromium", c.browser)
    ensures ReadWithDefault(env, "SCREENSHOT_DIR", "reports/screenshots", c.screenshotDir)
    ensures ReadWithDefault(env, "VIDEO_DIR", "reports/videos", c.videoDir)
    ensures ReadWithDefault(env, "KEYCLOAK_BASE_URL", DefaultKeycloakBaseUrl, c.keycloakBaseUrl)
    ensures ReadWithDefault(env, "KEYCLOAK_REALM", DefaultRealm, c.keycloakRealm)
    ensures ReadWithDefault(env, "KEYCLOAK_GRANT_TYPE", "password", c.grantType)
    ensures ReadWithDefault(env, "KEYCLOAK_INVALID_USERNAME", DefaultInvalidUsername, c.invalidUsername)
    ensures ReadWithDefault(env, "KEYCLOAK_INVALID_PASSWORD", DefaultInvalidPassword, c.invalidPassword)
    // the flags are `get_bool_env` with the source's defaults
    ensures c.headless == GetBoolEnv(env, "HEADLESS", "true")
    ensures c.debug == GetBoolEnv(env, "DEBUG", "false")
    ensures c.trace == GetBoolEnv(env, "TRACE", "false")
    ensures c.screenshotOnFailure == GetBoolEnv(env, "SCREENSHOT_ON_FAILURE", "true")
    ensures c.videoOnFailure == GetBoolEnv(env, "VIDEO_ON_FAILURE", "false")
    // the token endpoint always belongs to the configured Keycloak and realm
    ensures c.tokenEndpoint == TokenEndpoint(c.keycloakBaseUrl, c.keycloakRealm)
  {
    var baseUrl := GetEnvOr(env, "KEYCLOAK_BASE_URL", DefaultKeycloakBaseUrl);
    var realm := GetEnvOr(env, "KEYCLOAK_REALM", DefaultRealm);
    Config(
      portalBaseUrl := GetEnvOr(env, "PORTAL_BASE_URL", GetEnvOr(env, "BASE_URL", DefaultPortalBaseUrl)),
      browser := GetEnvOr(env, "BROWSER", "chromium"),
      headless := GetBoolEnv(env, "HEADLESS", "true"),
      debug := GetBoolEnv(env, "DEBUG", "false"),
      trace := GetBoolEnv(env, "TRACE", "false"),
      screenshotOnFailure := GetBoolEnv(env, "SCREENSHOT_ON_FAILURE", "true"),
      screenshotDir := GetEnvOr(env, "SCREENSHOT_DIR", "reports/screenshots"),
      videoOnFailure := GetBoolEnv(env, "VIDEO_ON_FAILURE", "false"),
      videoDir := GetEnvOr(env, "VIDEO_DIR", "reports/videos"),
      testEmail := GetEnv(env, "TEST_EMAIL"),
      testPassword := GetEnv(env, "TEST_PASSWORD"),
      testMfaCode := GetEnv(env, "TEST_MFA_CODE"),
      keycloakBaseUrl := baseUrl,
      keycloakRealm := realm,
      tokenEndpoint := TokenEndpoint(baseUrl, realm),
      clientId := GetEnv(env, "KEYCLOAK_CLIENT_ID"),
      clientSecret := GetEnv(env, "KEYCLOAK_CLIENT_SECRET"),
      username := GetEnv(env, "KEYCLOAK_USERNAME"),
      password := GetEnv(env, "KEYCLOAK_PASSWORD"),
      grantType := GetEnvOr(env, "KEYCLOAK_GRANT_TYPE", "password"),
      invalidUsername := GetEnvOr(env, "KEYCLOAK_INVALID_USERNAME", DefaultInvalidUsername),
      invalidPassword := GetEnvOr(env, "KEYCLOAK_INVALID_PASSWORD", DefaultInvalidPassword))
  }

  /** With nothing set, every setting takes its documented default and no
      credential is configured. */
  lemma LoadDefaults()
    ensures var c := Load(map[]);
            && c.browser == "chromium" && c.headless && !c.debug && !c.trace
            && c.screenshotOnFailure && !c.videoOnFailure
            && c.portalBaseUrl == DefaultPortalBaseUrl
            && c.tokenEndpoint == DefaultKeycloakBaseUrl + "/realms/" + DefaultRealm + "/protocol/openid-connect/token"
            && c.grantType == "password"
            && c.screenshotDir == "reports/screenshots" && c.videoDir == "reports/videos"
            && c.keycloakBaseUrl == DefaultKeycloakBaseUrl && c.keycloakRealm == DefaultRealm
            && c.invalidUsername == DefaultInvalidUsername && c.invalidPassword == DefaultInvalidPassword
            && c.testEmail.None? && c.testPassword.None? && c.testMfaCode.None?
            && c.clientId.None? && c.clientSecret.None? && c.username.None? && c.password.None?
  {
    var c := Load(map[]);
    assert LowerChar('t') == 't' && LowerChar('r') == 'r' && LowerChar('u') == 'u' && LowerChar('e') == 'e';
    assert c.headless && c.screenshotOnFailure;
    assert !EqualsIgnoringCase("false", "true");
  }

  /** `PORTAL_BASE_URL` wins over `BASE_URL`, which wins over the default. */
  lemma PortalBaseUrlPrecedence(env: Env)
    ensures "PORTAL_BASE_URL" in env ==> Load(env).portalBaseUrl == env["PORTAL_BASE_URL"]
    ensures "PORTAL_BASE_URL" !in env && "BASE_URL" in env ==> Load(env).portalBaseUrl == env["BASE_URL"]
    ensures "PORTAL_BASE_URL" !in env && "BASE_URL" !in env ==> Load(env).portalBaseUrl == DefaultPortalBaseUrl
  {
  }

  /** A credential dictionary, as the requests library receives it. */
  type Credentials = map<string, string>

  const CredentialKeys: set<string> := {"client_id", "client_secret", "username", "password", "grant_type"}

  const ApiCredentialsError: string :=
    "API credentials not configured. Please set the following in .env:\n"
    + "  - KEYCLOAK_CLIENT_ID\n  - KEYCLOAK_CLIENT_SECRET\n  - KEYCLOAK_USERNAME\n  - KEYCLOAK_PASSWORD"

  /** `get_valid_credentials`: raises `ValueError` (`Failure`) unless the
      client id, client secret, username and password are all set and
      non-empty. */
  function ValidCredentials(c: Config): (r: Result<Credentials, string>)
    ensures r.Success? <==> IsSet(c.clientId) && IsSet(c.clientSecret) && IsSet(c.username) && IsSet(c.password)
    ensures r.Failure? ==> r.error == ApiCredentialsError
    ensures r.Success? ==> r.value.Keys == CredentialKeys
    ensures r.Success? ==> r.value["client_id"] == c.clientId.value && r.value["client_secret"] == c.clientSecret.value
    ensures r.Success? ==> r.value["username"] == c.username.value && r.value["password"] == c.password.value
    ensures r.Success? ==> r.value["grant_type"] == c.grantType
  {
    if !(IsSet(c.clientId) && IsSet(c.clientSecret) && IsSet(c.username) && IsSet(c.password)) then
      Failure(ApiCredentialsError)
    else
      Success(map["client_id" := c.clientId.value, "client_secret" := c.clientSecret.value,
                  "username" := c.username.value, "password" := c.password.value,
                  "grant_type" := c.grantType])
  }

  /** `get_invalid_username_credentials`: the valid credentials with only
      the username replaced. */
  function InvalidUsernameCredentials(c: Config): (r: Result<Credentials, string>)
    ensures r.Success? <==> ValidCredentials(c).Success?
    ensures r.Failure? ==> r.error == ApiCredentialsError
    ensures r.Success? ==> r.value.Keys == CredentialKeys && r.value["username"] == c.invalidUsername
    ensures r.Success? ==> forall k :: k in CredentialKeys && k != "username" ==> r.value[k] == ValidCredentials(c).value[k]
  {
    var base :- ValidCredentials(c);
    Success(base["username" := c.invalidUsername])
  }

  /** `get_invalid_password_credentials`: the valid credentials with only
      the password replaced. */
  function InvalidPasswordCredentials(c: Config): (r: Result<Credentials, string>)
    ensures r.Success? <==> ValidCredentials(c).Success?
    ensures r.Failure? ==> r.error == ApiCredentialsError
    ensures r.Success? ==> r.value.Keys == CredentialKeys && r.value["password"] == c.invalidPassword
    ensures r.Success? ==> forall k :: k in CredentialKeys && k != "password" ==> r.value[k] == ValidCredentials(c).value[k]
  {
    var base :- ValidCredentials(c);
    Success(base["password" := c.invalidPassword])
  }

  /** The two negative credential sets differ from each other only in the
      username and password, and each differs from the valid set in exactly
      one field unless the configured invalid value happens to equal the
      valid one. */
  lemma NegativeCredentialsDifferInOneField(c: Config)
    requires ValidCredentials(c).Success?
    ensures var v := ValidCredentials(c).value;
            var u := InvalidUsernameCredentials(c).value;
            var p := InvalidPasswordCredentials(c).value;
            && (forall k :: k in CredentialKeys && k != "username" && k != "password" ==> u[k] == p[k])
            && u["password"] == v["password"] && p["username"] == v["username"]
            && (u == v <==> c.invalidUsername == v["username"])
            && (p == v <==> c.invalidPassword == v["password"])
  {
    var v := ValidCredentials(c).value;
    var u := InvalidUsernameCredentials(c).value;
    var p := InvalidPasswordCredentials(c).value;
    if c.invalidUsername == v["username"] {
      assert forall k :: k in u <==> k in v;
      assert u == v;
    }
    if c.invalidPassword == v["password"] {
      assert forall k :: k in p <==> k in v;
      assert p == v;
    }
  }

  const WebCredentialsError: string :=
    "Web test credentials not configured. Please set in .env:\n  - TEST_EMAIL\n  - TEST_PASSWORD"

  /** `validate_web_credentials`: raises unless the test email and password
      are both set and non-empty. */
  function ValidateWebCredentials(c: Config): (r: Outcome<string>)
    ensures r.Pass? <==> IsSet(c.testEmail) && IsSet(c.testPassword)
    ensures r.Fail? ==> r.error == WebCredentialsError
  {
    if IsSet(c.testEmail) && IsSet(c.testPassword) then Pass else Fail(WebCredentialsError)
  }

  /** The dictionary `validate_config` returns. */
  datatype Report = Report(valid: bool, errors: seq<string>, warnings: seq<string>)

  const SupportedBrowsers: seq<string> := ["chromium", "firefox", "webkit"]
  const WebWarning: string := "Web test credentials not configured"
  const ApiWarning: string := "API test credentials not configured"

  /** `validate_config`: missing credentials only warn; an unsupported
      browser is the one error, and the only thing that makes the
      configuration invalid. */
  function ValidateConfig(c: Config): (r: Report)
    ensures r.valid <==> c.browser in SupportedBrowsers
    ensures |r.errors| > 0 <==> !r.valid
    ensures !r.valid ==> r.errors == ["Invalid browser: " + c.browser]
    ensures WebWarning in r.warnings <==> !(IsSet(c.testEmail) && IsSet(c.testPassword))
    ensures ApiWarning in r.warnings <==> !(IsSet(c.clientId) && IsSet(c.clientSecret))
    ensures |r.warnings| == (if !(IsSet(c.testEmail) && IsSet(c.testPassword)) then 1 else 0)
                            + (if !(IsSet(c.clientId) && IsSet(c.clientSecret)) then 1 else 0)
    ensures |r.warnings| == 2 ==> r.warnings == [WebWarning, ApiWarning]
  {
    var web := if !IsSet(c.testEmail) || !IsSet(c.testPassword) then [WebWarning] else [];
    var api := if !(IsSet(c.clientId) && IsSet(c.clientSecret)) then [ApiWarning] else [];
    var ok := c.browser in SupportedBrowsers;
    assert WebWarning != ApiWarning by { assert WebWarning[0] != ApiWarning[0]; }
    Report(ok, if ok then [] else ["Invalid browser: " + c.browser], web + api)
  }

  /** Credentials never affect validity: two configurations that differ
      only in their credentials validate alike, up to warnings. */
  lemma CredentialsOnlyWarn(c: Config, email: Option<string>, pass: Option<string>,
                            id: Option<string>, secret: Option<string>)
    ensures var d := c.(testEmail := email, testPassword := pass, clientId := id, clientSecret := secret);
            ValidateConfig(d).valid == ValidateConfig(c).valid
            && ValidateConfig(d).errors == ValidateConfig(c).errors
  {
  }

  /** `validate_web_credentials` raises exactly when `validate_config`
      warns about the web credentials. */
  lemma WebCheckAgreesWithWarning(c: Config)
    ensures ValidateWebCredentials(c).Fail? <==> WebWarning in ValidateConfig(c).warnings
  {
  }
}

=== FILE: sql_query.dfy ===
/** The two query builders of database/sql_query.py: the ILIKE search
    pattern and the dynamic `WHERE` clause built from a filter dictionary.
    A dictionary is its list of (field, value) entries in iteration order;
    `V` stands for whatever values the caller puts in it. */
module SqlQuery {
  import opened Text

  /** `build_search_pattern`: the term between two `%` wildcards, so an
      ILIKE match finds it anywhere in the column. */
  function SearchPattern(term: string): (r: string)
    ensures |r| == |term| + 2
    ensures r[0] == '%' && r[|r| - 1] == '%'
    ensures r[1..|r| - 1] == term
  {
    "%" + term + "%"
  }

  /** A query text with its positional parameters. */
  datatype Query<V> = Query(text: string, params: seq<V>)

  const SelectUsersWhere: string := "SELECT * FROM users WHERE "
  const OrderByNewest: string := " ORDER BY created_at DESC;"

  /** One equality condition with a placeholder for its value. */
  function Condition(field: string): string
  {
    field + " = %s"
  }

  /** The condition of every filter entry, in iteration order. */
  function Conditions<V>(filter: seq<(string, V)>): (r: seq<string>)
    ensures |r| == |filter|
    ensures forall i :: 0 <= i < |filter| ==> r[i] == Condition(filter[i].0)
  {
    seq(|filter|, i requires 0 <= i < |filter| => Condition(filter[i].0))
  }

  /** `get_users_by_filter`, as the source writes it: no guard for an
      empty filter. */
  function UsersByFilter<V>(filter: seq<(string, V)>): (q: Query<V>)
    // one parameter per entry, in the filter's iteration order
    ensures |q.params| == |filter|
    ensures forall i :: 0 <= i < |filter| ==> q.params[i] == filter[i].1
    // fixed head and tail around the conditions
    ensures |q.text| >= |SelectUsersWhere| + |OrderByNewest|
    ensures q.text[..|SelectUsersWhere|] == SelectUsersWhere
    ensures q.text[|q.text| - |OrderByNewest|..] == OrderByNewest
    ensures q.text[|SelectUsersWhere|..|q.text| - |OrderByNewest|] == Join(Conditions(filter), " AND ")
  {
    var text := SelectUsersWhere + Join(Conditions(filter), " AND ") + OrderByNewest;
    assert text[|SelectUsersWhere|..|text| - |OrderByNewest|] == Join(Conditions(filter), " AND ");
    Query(text, seq(|filter|, i requires 0 <= i < |filter| => filter[i].1))
  }

  /** Number of occurrences of `c` in `s`. */
  function CountChar(s: string, c: char): nat
  {
    if |s| == 0 then 0 else (if s[0] == c then 1 else 0) + CountChar(s[1..], c)
  }

  lemma {:induction false} CountCharAppend(a: string, b: string, c: char)
    ensures CountChar(a + b, c) == CountChar(a, c) + CountChar(b, c)
  {
    if |a| == 0 {
      assert a + b == b;
    } else {
      assert (a + b)[1..] == a[1..] + b;
      CountCharAppend(a[1..], b, c);
    }
  }

  /** No field name holds a `%`. */
  predicate PercentFreeFields<V>(filter: seq<(string, V)>) {
    forall i :: 0 <= i < |filter| ==> CountChar(filter[i].0, '%') == 0
  }

  lemma {:induction false} CountCharAbsent(s: string, c: char)
    requires c !in s
    ensures CountChar(s, c) == 0
  {
    if |s| > 0 {
      assert s == [s[0]] + s[1..];
      CountCharAbsent(s[1..], c);
    }
  }

  /** Every condition holds exactly one `%` when its field holds none. */
  lemma ConditionPercents(field: string)
    requires CountChar(field, '%') == 0
    ensures CountChar(Condition(field), '%') == 1
  {
    CountCharAppend(field, " = ", '%');
    CountCharAbsent(" = ", '%');
    CountCharAppend(field + " = ", "%s", '%');
    assert field + " = %s" == field + " = " + "%s";
  }

  /** Joining the conditions of a percent-free filter yields exactly one
      `%` per entry: one per `%s` placeholder. */
  lemma {:induction false} JoinedConditionsPercents<V>(filter: seq<(string, V)>)
    requires PercentFreeFields(filter)
    ensures CountChar(Join(Conditions(filter), " AND "), '%') == |filter|
  {
    var conds := Conditions(filter);
    if |filter| > 0 {
      ConditionPercents(filter[0].0);
      if |filter| > 1 {
        assert conds[1..] == Conditions(filter[1..]);
        JoinedConditionsPercents(filter[1..]);
        CountCharAbsent(" AND ", '%');
        CountCharAppend(conds[0], " AND ", '%');
        CountCharAppend(conds[0] + " AND ", Join(conds[1..], " AND "), '%');
      }
    }
  }

  /** When no field name holds a `%`, the query has exactly one `%s`
      placeholder per parameter, as the database driver needs. */
  lemma PlaceholdersMatchParams<V>(filter: seq<(string, V)>)
    requires PercentFreeFields(filter)
    ensures CountChar(UsersByFilter(filter).text, '%') == |UsersByFilter(filter).params|
  {
    var mid := Join(Conditions(filter), " AND ");
    JoinedConditionsPercents(filter);
    FixedTextHasNoPercent();
    CountCharAppend(SelectUsersWhere, mid, '%');
    CountCharAppend(SelectUsersWhere + mid, OrderByNewest, '%');
    UsersByFilterText(filter);
  }

  lemma FixedTextHasNoPercent()
    ensures CountChar(SelectUsersWhere, '%') == 0 && CountChar(OrderByNewest, '%') == 0
  {
    SelectHasNoPercent();
    OrderByHasNoPercent();
  }

  lemma SelectHasNoPercent()
    ensures CountChar(SelectUsersWhere, '%') == 0
  {
    CountCharAbsent(SelectUsersWhere, '%');
  }

  lemma OrderByHasNoPercent()
    ensures CountChar(OrderByNewest, '%') == 0
  {
    CountCharAbsent(OrderByNewest, '%');
  }

  lemma UsersByFilterText<V>(filter: seq<(string, V)>)
    ensures UsersByFilter(filter).text == SelectUsersWhere + Join(Conditions(filter), " AND ") + OrderByNewest
  {
  }

  /** An empty filter leaves `WHERE` with no condition: the text is the
      `WHERE` head immediately followed by the `ORDER BY` tail
      (`... WHERE  ORDER BY ...`), which PostgreSQL rejects as a syntax
      error. */
  lemma EmptyFilterLeavesDanglingWhere<V>()
    ensures UsersByFilter<V>([]).text == SelectUsersWhere + OrderByNewest
    ensures UsersByFilter<V>([]).params == []
  {
    UsersByFilterText<V>([]);
    assert Join(Conditions<V>([]), " AND ") == "";
    assert SelectUsersWhere + "" == SelectUsersWhere;
  }

  const SelectUsers: string := "SELECT * FROM users"

  /** `get_users_by_filter` with the guard the source lacks: the `WHERE`
      keyword is written only when there is a condition to follow it. */
  function UsersByFilterGuarded<V>(filter: seq<(string, V)>): (q: Query<V>)
    ensures |filter| == 0 ==> q.text == SelectUsers + OrderByNewest && q.params == []
    ensures |filter| > 0 ==> q == UsersByFilter(filter)
  {
    if |filter| == 0 then Query(SelectUsers + OrderByNewest, []) else UsersByFilter(filter)
  }

  /** Every `WHERE` the guarded builder writes is followed by a condition:
      the text after `WHERE ` starts with the first field's condition. */
  lemma GuardedWhereHasCondition<V>(filter: seq<(string, V)>)
    ensures var t := UsersByFilterGuarded(filter).text;
            |t| >= |SelectUsersWhere| && t[..|SelectUsersWhere|] == SelectUsersWhere ==>
              |filter| > 0 &&
              t[|SelectUsersWhere|..][..|Condition(filter[0].0)|] == Condition(filter[0].0)
  {
    var t := UsersByFilterGuarded(filter).text;
    if |filter| == 0 {
      NoWhereWithoutFilter();
    } else {
      var conds := Conditions(filter);
      var mid := Join(conds, " AND ");
      JoinStartsWithFirst(conds, " AND ");
      UsersByFilterText(filter);
      assert t[|SelectUsersWhere|..] == mid + OrderByNewest;
    }
  }

  lemma NoWhereWithoutFilter()
    ensures var t := SelectUsers + OrderByNewest;
            |t| < |SelectUsersWhere| || t[..|SelectUsersWhere|] != SelectUsersWhere
  {
    var t := SelectUsers + OrderByNewest;
    assert t[20] == 'O';
    assert SelectUsersWhere[20] == 'W';
  }
}

=== FILE: text.dfy ===
/** String helpers standing in for the Python `str` methods the core uses.
    Python's character classes are Unicode-aware; this model restricts them
    to ASCII (digits `0`-`9`, letters `A`-`Z`/`a`-`z`, the ASCII whitespace
    characters that `str.isspace` accepts). */
module Text {

  predicate IsDigit(c: char) {
    '0' <= c <= '9'
  }

  predicate IsUpper(c: char) {
    'A' <= c <= 'Z'
  }

  predicate IsLower(c: char) {
    'a' <= c <= 'z'
  }

  /** ASCII restriction of `str.isalnum` on one character. */
  predicate IsAlnum(c: char) {
    IsDigit(c) || IsUpper(c) || IsLower(c)
  }

  /** ASCII restriction of `str.isspace`: space, `\t`, `\n`, `\v`, `\f`,
      `\r` and the four separators U+001C to U+001F. */
  predicate IsSpace(c: char) {
    c == ' ' || 9 <= c as int <= 13 || 28 <= c as int <= 31
  }

  /** ASCII restriction of `str.lower` on one character. */
  function LowerChar(c: char): char {
    if IsUpper(c) then (c as int + 32) as char else c
  }

  /** ASCII restriction of `str.lower`. */
  function Lower(s: string): (r: string)
    ensures |r| == |s|
    ensures forall i :: 0 <= i < |s| ==> r[i] == LowerChar(s[i])
  {
    seq(|s|, i requires 0 <= i < |s| => LowerChar(s[i]))
  }

  /** `sep.join(parts)`. */
  function Join(parts: seq<string>, sep: string): string
  {
    if |parts| == 0 then ""
    else if |parts| == 1 then parts[0]
    else parts[0] + sep + Join(parts[1..], sep)
  }

  /** A join starts with its first part. */
  lemma JoinStartsWithFirst(parts: seq<string>, sep: string)
    requires |parts| > 0
    ensures |Join(parts, sep)| >= |parts[0]|
    ensures Join(parts, sep)[..|parts[0]|] == parts[0]
  {
  }

  /** `needle` occurs in `hay` starting at position `i`. */
  predicate OccursAt(needle: string, hay: string, i: int) {
    0 <= i && i + |needle| <= |hay| && hay[i..i + |needle|] == needle
  }

  /** Python's `needle in hay` on strings. */
  function Contains(needle: string, hay: string): (b: bool)
    ensures b <==> exists i :: OccursAt(needle, hay, i)
    decreases |hay|
  {
    if |needle| > |hay| then
      assert forall i :: !OccursAt(needle, hay, i);
      false
    else if hay[..|needle|] == needle then
      assert OccursAt(needle, hay, 0);
      true
    else
      var b := Contains(needle, hay[1..]);
      assert forall i :: OccursAt(needle, hay[1..], i) <==> OccursAt(needle, hay, i + 1) by {
        forall i ensures OccursAt(needle, hay[1..], i) <==> OccursAt(needle, hay, i + 1) {
          if 0 <= i && i + |needle| <= |hay| - 1 {
            assert hay[1..][i..i + |needle|] == hay[i + 1..i + 1 + |needle|];
          }
        }
      }
      assert !OccursAt(needle, hay, 0);
      assert (exists i :: OccursAt(needle, hay, i)) ==> exists i :: OccursAt(needle, hay[1..], i) by {
        if exists i :: OccursAt(needle, hay, i) {
          var i :| OccursAt(needle, hay, i);
          assert i != 0;
          assert OccursAt(needle, hay[1..], i - 1);
        }
      }
      b
  }

  /** Number of whitespace characters at the start of `s`. */
  function LeadingSpaces(s: string): (n: nat)
    ensures n <= |s|
    ensures forall i :: 0 <= i < n ==> IsSpace(s[i])
    ensures n < |s| ==> !IsSpace(s[n])
  {
    if |s| > 0 && IsSpace(s[0]) then 1 + LeadingSpaces(s[1..]) else 0
  }

  /** Number of whitespace characters at the end of `s`. */
  function TrailingSpaces(s: string): (n: nat)
    ensures n <= |s|
    ensures forall i :: |s| - n <= i < |s| ==> IsSpace(s[i])
    ensures n < |s| ==> !IsSpace(s[|s| - n - 1])
  {
    if |s| > 0 && IsSpace(s[|s| - 1]) then 1 + TrailingSpaces(s[..|s| - 1]) else 0
  }

  /** `str.strip()` with no argument: the slice of `s` left after removing
      leading and trailing whitespace. */
  function Strip(s: string): (r: string)
    ensures |r| <= |s|
    ensures |r| > 0 ==> !IsSpace(r[0]) && !IsSpace(r[|r| - 1])
    ensures LeadingSpaces(s) + |r| <= |s|
    ensures r == s[LeadingSpaces(s)..LeadingSpaces(s) + |r|]
    ensures forall i :: LeadingSpaces(s) + |r| <= i < |s| ==> IsSpace(s[i])
  {
    var a := LeadingSpaces(s);
    var t := s[a..];
    var r := t[..|t| - TrailingSpaces(t)];
    assert r == s[a..a + |r|];
    r
  }
}

=== FILE: wait_helpers.dfy ===
/** Bounded retry and condition polling (utils/wait_helpers.py).

    The called function, the condition and the clock are oracles:
    `attempts[i]` is what the i-th call of the retried function does,
    `conds[i]` what the i-th evaluation of the condition does, and
    `readings[i]` the elapsed time, in integer ticks since the wait began,
    that the loop guard sees the i-th time it is evaluated. */
module WaitHelpers {
  import opened Wrappers

  /** One call of the retried function: it returns a value or raises. */
  datatype Attempt<T, E> = Returns(value: T) | Raises(error: E)

  /** How `retry_on_failure` ends. `RaisedNone` is Python's `raise None`
      (a `TypeError`), reached when `max_attempts` is not positive so that
      no attempt is made and the remembered exception is still `None`. */
  datatype RetryOutcome<T, E> = Returned(value: T) | Raised(error: E) | RaisedNone

  /** `retry_on_failure(func, max_attempts, delay, exceptions)`.
      `retryable(e)` says whether `e` is an instance of one of
      `exceptions`. `calls` counts calls of `func` and `sleeps` counts
      `time.sleep(delay)` calls. */
  method RetryOnFailure<T, E>(attempts: seq<Attempt<T, E>>, maxAttempts: int, retryable: E -> bool)
    returns (r: RetryOutcome<T, E>, calls: nat, sleeps: nat)
    requires maxAttempts <= |attempts|
    // at most max_attempts calls, and a delay only between two calls
    ensures maxAttempts <= 0 ==> calls == 0
    ensures maxAttempts > 0 ==> 1 <= calls <= maxAttempts
    ensures sleeps == if calls == 0 then 0 else calls - 1
    // every call before the last raised a retryable exception
    ensures forall j :: 0 <= j < calls - 1 ==> attempts[j].Raises? && retryable(attempts[j].error)
    // the first call that returns decides the result
    ensures r.Returned? <==> calls > 0 && attempts[calls - 1].Returns?
    ensures r.Returned? ==> r.value == attempts[calls - 1].value
    // an exception outside `exceptions` propagates from the call that raised it
    ensures calls > 0 && attempts[calls - 1].Raises? ==> r == Raised(attempts[calls - 1].error)
    ensures r.Raised? && !retryable(r.error) ==> calls > 0 && attempts[calls - 1].Raises?
    // the loop ends early only on a return or a non-retryable exception
    ensures 0 < calls < maxAttempts ==>
              attempts[calls - 1].Returns? || !retryable(attempts[calls - 1].error)
    // no attempt at all re-raises None
    ensures r.RaisedNone? <==> maxAttempts <= 0
  {
    calls, sleeps := 0, 0;
    var attempt := 1;
    var last: Option<E> := None;
    while attempt <= maxAttempts
      invariant 1 <= attempt
      invariant attempt <= (if maxAttempts > 0 then maxAttempts else 0) + 1
      invariant calls == attempt - 1
      invariant sleeps == if calls == 0 then 0 else if attempt <= maxAttempts then calls else calls - 1
      invariant forall j :: 0 <= j < calls ==> attempts[j].Raises? && retryable(attempts[j].error)
      invariant calls == 0 <==> last.None?
      invariant calls > 0 ==> last == Some(attempts[calls - 1].error)
    {
      calls := calls + 1;
      match attempts[attempt - 1]
      case Returns(v) =>
        return Returned(v), calls, sleeps;
      case Raises(e) =>
        if !retryable(e) {
          return Raised(e), calls, sleeps;
        }
        last := Some(e);
        if attempt < maxAttempts {
          sleeps := sleeps + 1;
        }
      attempt := attempt + 1;
    }
    r := if last.Some? then Raised(last.value) else RaisedNone;
  }

  /** One evaluation of the polled condition. */
  datatype CondOutcome = Holds | NotYet | Threw(message: string)

  /** Successive clock readings are at least one poll interval apart, since
      each guard evaluation after the first follows a `time.sleep`. */
  predicate ClockRespectsSleeps(readings: seq<nat>, pollInterval: nat) {
    forall i :: 0 <= i < |readings| - 1 ==> readings[i] + pollInterval <= readings[i + 1]
  }

  /** `wait_for_condition(condition, timeout, poll_interval, error_message)`.
      Returns `Success(true)` or fails with the `TimeoutError` message;
      `polls` counts evaluations of the condition. The clock eventually
      reaches the timeout: the last reading is at least `timeout`. */
  method WaitForCondition(readings: seq<nat>, conds: seq<CondOutcome>, timeout: int,
                          pollInterval: nat, errorMessage: string)
    returns (r: Result<bool, string>, polls: nat)
    requires |readings| > 0 && readings[|readings| - 1] >= timeout
    requires |conds| >= |readings| - 1
    ensures r == Success(true) || r == Failure(errorMessage)
    // the condition is evaluated only while the elapsed time is below the timeout
    ensures polls < |readings|
    ensures forall j :: 0 <= j < polls ==> readings[j] < timeout
    // success exactly at the first poll where the condition holds, and no further poll
    ensures r.Success? <==> polls > 0 && conds[polls - 1] == Holds
    ensures forall j :: 0 <= j < polls - 1 ==> conds[j] != Holds
    // failure exactly when the clock reached the timeout first
    ensures r.Failure? ==> readings[polls] >= timeout
    ensures timeout <= 0 ==> polls == 0 && r == Failure(errorMessage)
    // with sleeps of `pollInterval` ticks, the number of polls is bounded by the timeout
    ensures ClockRespectsSleeps(readings, pollInterval) && polls > 0 ==>
              (polls - 1) * pollInterval < timeout
  {
    polls := 0;
    while readings[polls] < timeout
      invariant polls < |readings|
      invariant forall j :: 0 <= j < polls ==> readings[j] < timeout && conds[j] != Holds
      invariant ClockRespectsSleeps(readings, pollInterval) ==> readings[polls] >= polls * pollInterval
      invariant ClockRespectsSleeps(readings, pollInterval) && polls > 0 ==> (polls - 1) * pollInterval < timeout
      decreases |readings| - polls
    {
      polls := polls + 1;
      if conds[polls - 1] == Holds {
        return Success(true), polls;
      }
      // a condition that raised counts as not yet satisfied
      if ClockRespectsSleeps(readings, pollInterval) {
        assert readings[polls - 1] + pollInterval <= readings[polls];
        assert (polls - 1) * pollInterval + pollInterval == polls * pollInterval;
      }
    }
    r := Failure(errorMessage);
  }
}

=== FILE: wrappers.dfy ===
/** Option and Result datatypes used throughout the model in place of
    Python's `None` and raised exceptions. */
module Wrappers {

  /** A value that may be absent (Python's `Optional[T]`). */
  datatype Option<+T> = None | Some(value: T) {

    /** Returns the value held by Some, or `default` for None. */
    function GetOr(default: T): T {
      match this
      case Some(v) => v
      case None => default
    }
  }

  /** The outcome of an operation that either returns a value or raises. */
  datatype Result<+R, +E> = Success(value: R) | Failure(error: E) {

    predicate IsFailure() {
      Failure?
    }

    function PropagateFailure<U>(): Result<U, E>
      requires Failure?
    {
      Failure(error)
    }

    function Extract(): R
      requires Success?
    {
      value
    }
  }

  /** The outcome of an operation that returns nothing but may raise. */
  datatype Outcome<+E> = Pass | Fail(error: E) {

    predicate IsFailure() {
      Fail?
    }

    function PropagateFailure(): Outcome<E>
      requires Fail?
    {
      this
    }
  }
}
